=== FILE: README.md ===
# Shop-state engine

A Dafny model of the state engine behind the shop's REST routes: the cart, price-preview,
order-placement, payment-settlement and seller product handlers. They work over the products,
users (wallet points), coupons and coupon assignments, cart, orders and order_items tables.
The coupons table is a sequence of rows in storage order; the coupon lookup is a filter over it.

The repository implements these handlers twice:

- `server/routes/*` reads the user or seller from a JWT.
- `onlynode/src/routes/*` reads `user_id` or `seller_id` from the body or the query string.

Otherwise the two do the same thing. The model has one handler per route and takes the id as a
parameter. The empty string stands for an id the request leaves out. That gives onlynode's
"user_id is required" and "seller_id is required" answers as the errors `MissingUserId` and
`MissingSellerId`. A JWT id is never empty, so for the server those cases never arise.

Modules:

- `ShopTypes` (`shop_types.dfy`): table rows, the error datatype, `Option` and `Result`.
- `Pricing` (`pricing.dfy`): the price formula that the calculate-total and place-order handlers
  share. It is a subtotal loop, a coupon discount, a wallet deduction capped at the balance,
  and a total clamped at zero. Money is exact `real`.
- `CartTable` (`cart_table.dfy`): the cart table as a sequence of rows in storage order, with
  the statements the cart handlers run on it. That means WHERE-filtered selects and deletes, the
  quantity updates, and the add-or-increment upsert. It also holds the unique (user, product)
  key and what each statement does to it.
- `Checkout` (`checkout.dfy`): the cart joined with live prices and stock, the stock-check loop,
  the order lines written from the cart, and the stock withdrawn at checkout and put back after
  a failed payment.
- `Store` (`store.dfy`): the class `Shop`, whose fields are the tables. It has one method per
  request handler, and the invariant `Valid` holds the table constraints the handlers keep:
  - keys and foreign keys;
  - the unique cart key;
  - non-negative stock and wallets;
  - positive prices;
  - unique coupon codes.

  The module also holds the calculate-total function `Quote` and the relation `CheckedOut`
  between the tables before and after a successful checkout.
- `Scenarios` (`scenarios.dfy`): the client sequence of the checkout page. It places an order
  and then reports the payment outcome.

Each handler runs every check before its first write, so a rejected request leaves every table
as it was. Each method's contract states this.

Error codes:

| HTTP outcome | `Error` |
|---|---|
| 400 from a request schema | `InvalidRequest` |
| 400 "user_id is required" (onlynode) | `MissingUserId` |
| 400 "seller_id is required" (onlynode) | `MissingSellerId` |
| 400 "Invalid seller_id. Seller does not exist." (onlynode), or the server's 500 from the seller foreign key | `UnknownSeller` |
| 404 | `ProductNotFound`, `CartItemNotFound`, `OrderNotFound` |
| 400 "Cart is empty" | `EmptyCart` |
| 400 "Insufficient stock for product …" | `InsufficientStock(product)` |
| 400 "Invalid stock value" | `InvalidStockValue` |
| 400 "Invalid payment status" | `InvalidPaymentStatus` |
| 400 "Order payment already processed" | `PaymentAlreadyProcessed` |
| 500 from a statement the database refuses, or a missing row read | `StoreFailure` |

Inputs that come from outside the handlers are parameters:

- the current time (`now`), which is compared with `valid_until`;
- fresh uuids (`freshId`, `orderId`, `productId`), which the caller guarantees are new;
- the payment outcome string.

## Model

| member | source | states |
|---|---|---|
| Pricing.SumSubtotal | server/routes/orders.ts:68-71 | the accumulator loop yields exactly the sum of price times quantity over the cart rows |
| Pricing.SubtotalNonNegative | server/routes/cart.ts:232-235 | with non-negative prices and quantities the subtotal is non-negative |
| Pricing.CouponQuery | server/routes/cart.ts:240-245 | the coupon select returns exactly the coupons rows whose code is the requested code, that are assigned to the user, and that have no expiry or expire after `now` |
| Pricing.DiscountPercent | server/routes/cart.ts:239-252 | a non-zero percentage is only applied for a non-empty code, and is the percentage of a coupon that the select would return |
| Pricing.DiscountPercentRule | server/routes/orders.ts:75-88 | with unique coupon codes, an applicable coupon gives exactly its own percentage; no code, an empty code, or a code matching no applicable coupon gives 0 |
| Pricing.DiscountWithinSubtotal | server/routes/orders.ts:84-87 | a coupon of 0 to 100 percent discounts between 0 and the subtotal |
| Pricing.WalletUsed | server/routes/cart.ts:255-263 | no deduction unless the request is positive; otherwise the deduction is the request or the balance, whichever is smaller, and never negative for a non-negative balance |
| Pricing.WalletUsedWhole | server/routes/orders.ts:91-100 | for a whole-number request the deduction is the whole number `min(request, balance)`, so it can be debited from the integer wallet |
| Pricing.Total | server/routes/cart.ts:265 | the total is non-negative, at least subtotal − discount − wallet, and equal to one of 0 or subtotal − discount − wallet |
| CartTable.KeepLines | server/routes/cart.ts:295 | a WHERE-filtered select or delete keeps exactly the rows satisfying the condition and never adds rows |
| CartTable.KeepLinesUnique | server/config/database.ts:85-86 | deleting rows keeps the cart's primary key and its unique (user, product) key |
| CartTable.ClearCartEffect | onlynode/src/routes/cart.ts:288 | after clearing, the user has no cart lines and every other user's lines are exactly as before, in order |
| CartTable.KeepLinesNested | server/routes/cart.ts:295 | selecting from a filtered cart with a stricter condition is selecting from the whole cart |
| CartTable.FindLine | server/routes/cart.ts:56-59 | the lookup finds a line with this user and product, or reports that the cart has none |
| CartTable.UpsertEffect | server/routes/cart.ts:61-75 | add-to-cart keeps one line per (user, product): an existing line grows by the quantity and is the only line that changes, otherwise exactly one new line with the quantity is appended |
| CartTable.SetQuantityUnique | server/routes/cart.ts:147 | overwriting a quantity keeps every line's id, user and product, and so both cart keys |
| Checkout.CartRowsJoin | server/routes/orders.ts:46-51 | each joined row is one of the user's cart lines whose product exists, priced with that product's current price and stock; there are no rows exactly when no line of the user has an existing product |
| Checkout.CartRowsComplete | server/routes/orders.ts:46-51 | conversely, every cart line of the user whose product exists appears as a joined row |
| Checkout.RowsHaveDistinctProducts | server/config/database.ts:86 | given the unique (user, product) key, no product occurs twice among a user's joined rows |
| Checkout.FindShortage | server/routes/orders.ts:57-65 | the stock-check loop finds no row exactly when every row is within stock; otherwise it names the first row whose quantity exceeds its stock |
| Checkout.ItemMovesOfItemsFor | server/routes/orders.ts:114-121 | the order lines written at checkout carry exactly the (product, quantity) pairs of the cart rows |
| Checkout.QuantityOfNonNegative | server/routes/orders.ts:288-293 | order-line quantities put back on stock add up to a non-negative amount per product |
| Checkout.QuantityOfDistinct | server/routes/orders.ts:114-128 | when no product repeats, the quantity withdrawn for a product is its one row's quantity |
| Checkout.QuantityOfAbsent | server/routes/orders.ts:123-127 | a product named by no row has nothing withdrawn |
| Checkout.WithdrawStep | server/routes/orders.ts:124-127 | one more stock decrement or increment is one more move in the cumulative withdrawal or restock |
| Checkout.RestockUndoesWithdraw | server/routes/orders.ts:288-293 | putting the withdrawn quantities back restores the products table exactly |
| Checkout.RestockKeepsProductsValid | onlynode/src/routes/orders.ts:269-274 | restocking from order lines of positive quantity keeps every stock non-negative and every product id |
| Checkout.CheckoutKeepsStockNonNegative | server/routes/orders.ts:58-65 | when every row is within stock and no product repeats, every stock stays non-negative after checkout |
| Checkout.CheckoutWithdrawsRowQuantity | server/routes/orders.ts:123-127 | checkout lowers each row's product stock by exactly that row's quantity |
| Checkout.CheckoutLeavesOtherProducts | onlynode/src/routes/orders.ts:105-108 | a product in none of the rows keeps its row unchanged |
| Checkout.ItemsForValid | server/routes/orders.ts:114-121 | every order line written from the cart refers to the new order and an existing product and has a positive quantity, when the cart lines do |
| Checkout.ItemsOfMembers | server/routes/orders.ts:283-286 | selecting order lines by order id yields exactly the lines of that order |
| Checkout.ItemsOfFresh | server/routes/orders.ts:283-286 | the lines of a newly written order are exactly the lines written for it, in order |
| Store.ParseOutcome | server/routes/orders.ts:254-256 | "success" and "failed" are the only accepted outcomes, each mapped to its payment status |
| Store.QuoteOutcomes | server/routes/cart.ts:202-283 | calculate-total rejects a missing user id and prices an empty cart at all zeros with no item count. A positive wallet request from an unknown user fails. Otherwise it returns the subtotal of the joined rows, the coupon discount, the capped wallet deduction, the clamped total, and the number of rows as item count |
| Store.QuoteBounds | onlynode/src/routes/cart.ts:222-262 | with positive prices, coupons of 0 to 100 percent and non-negative wallets, the discount is between 0 and the subtotal, the deduction between 0 and the balance, and the total between 0 and the subtotal |
| Store.QuoteWithoutCoupon | onlynode/src/routes/cart.ts:236-251 | a request whose code is absent, empty, or matches no applicable coupon is priced exactly like a request without a code |
| Store.QuoteWithCoupon | server/routes/cart.ts:238-251 | with unique coupon codes, a non-empty code naming a coupon that applies to the user at `now` makes the discount exactly that coupon's percentage of the subtotal |
| Store.ShopCouponRule | server/config/database.ts:56-58 | every valid shop keeps coupon codes unique, so in every shop an applicable coupon decides the discount percentage, and an empty code gives 0 |
| Store.QuoteOfPlacedOrder | server/routes/orders.ts:67-102 | the discount, points used and total that place-order computes are the calculate-total breakdown of the same tables and request |
| Store.CheckoutKeepsTablesValid | server/routes/orders.ts:107-139 | checkout keeps every table constraint: stock and wallet stay non-negative, and the new order lines refer to the new order and to existing products |
| Store.CheckedOutIntro | server/routes/orders.ts:107-152 | proof step for `Store.Shop.CheckOut`: tables written as the checkout writes them, with the calculate-total breakdown, satisfy `CheckedOut` |
| Store.Shop.AddToCart | onlynode/src/routes/cart.ts:12-68 | rejects a bad quantity, a missing user id or an unknown product with the cart unchanged; otherwise the cart becomes the upsert of the line, and a new line for an unknown user is refused by the database |
| Store.Shop.UpdateCartItem | onlynode/src/routes/cart.ts:104-148 | rejects a bad quantity, a missing user id, or a line the user does not own, with the cart unchanged; otherwise exactly that line's quantity is overwritten |
| Store.Shop.RemoveCartItem | onlynode/src/routes/cart.ts:150-190 | rejects a missing user id or a line the user does not own, with the cart unchanged; otherwise exactly the line with that id is deleted |
| Store.Shop.ClearCart | onlynode/src/routes/cart.ts:275-301 | rejects only a missing user id; otherwise deletes exactly the user's lines |
| Store.Shop.WriteItems | onlynode/src/routes/orders.ts:96-109 | the insert-and-decrement loop appends one order line per row and leaves each stock lowered by the rows' quantities |
| Store.Shop.RestoreStock | onlynode/src/routes/orders.ts:269-274 | the restore loop leaves each stock raised by the order lines' quantities |
| Store.Shop.Commit | server/routes/orders.ts:107-139 | the order row is inserted, the lines are written and stock withdrawn, the wallet is debited by the points used, and the user's cart is deleted |
| Store.Shop.PriceOrder | onlynode/src/routes/orders.ts:43-78 | the subtotal, discount, points used and total of checkout are the calculate-total breakdown, and the points used are at most the user's balance |
| Store.Shop.CheckOut | server/routes/orders.ts:67-152 | a cart that passed the checks is checked out as `CheckedOut` describes, and the table constraints still hold |
| Store.Shop.PlaceOrder | onlynode/src/routes/orders.ts:8-139 | the checks run in this order: a schema violation (a coupon code that is empty, or a wallet amount that is not a whole number from 0 to 2^53 - 1), a missing user id, an empty cart, then the first row short of stock. Each rejection leaves every table unchanged. On success the checkout is as `CheckedOut` describes. |
| Store.Shop.SettlePayment | server/routes/orders.ts:246-321 | the checks run in this order: an outcome other than success or failed, then an unknown order, then an order that is not pending. Each rejection changes nothing. Success marks the order success and processing, and nothing else changes. Failure marks it failed and cancelled, puts each order line's quantity back on stock, and credits the points used back to the wallet. |
| Store.Shop.GetOrder | onlynode/src/routes/orders.ts:141-189 | rejects a missing user id; an order not owned by the user is not found; otherwise returns the order with exactly its lines |
| Store.Shop.ListOrders | onlynode/src/routes/orders.ts:191-223 | rejects a missing user id; otherwise returns exactly the user's orders, each with the total, discount, points used, payment status and order status that the select reads |
| Store.Shop.AddProduct | onlynode/src/routes/products.ts:8-57 | the checks run in this order: a schema violation, a missing seller id, an unknown seller. Each rejection inserts nothing. A request without a description passes the schema but fails at the INSERT, which is given an undefined bind value, and nothing is inserted. Otherwise exactly one product with the given fields is added under the fresh id. |
| Store.Shop.GetProduct | server/routes/products.ts:130-164 | an unknown id is not found; otherwise the product row is returned |
| Store.Shop.UpdateStock | onlynode/src/routes/products.ts:154-201 | the checks run in this order: a missing seller id, a stock that is not a non-negative integer, a product the seller does not own. Each rejection changes nothing. Otherwise only that product's stock is set to the value. |
| Store.Shop.DeleteProduct | onlynode/src/routes/products.ts:203-243 | the checks run in this order: a missing seller id, a product the seller does not own. Both are rejected with nothing changed. A product that order lines refer to is refused by the database. Otherwise exactly that product is removed, along with the cart lines that refer to it. |
| Store.FailedPaymentUndoesCheckout | server/routes/orders.ts:281-301 | restocking a new order's lines undoes the stock withdrawn for it, and refunding the points undoes the debit |
| Store.CheckoutThenFailedPayment | onlynode/src/routes/orders.ts:263-282 | after a checkout the new order is pending, and a failed payment for it gives back exactly the products and wallets before the checkout |
| Scenarios.PlaceThenFail | server/routes/orders.ts:276-301 | placing an order and then reporting its payment failed cancels the order and leaves every stock and wallet as it was before the order |
| Scenarios.FailPlaced | server/routes/orders.ts:281-301 | a failed payment for the order just placed is accepted and restores the stock and wallets of before the checkout |
| Scenarios.SettleTwice | server/routes/orders.ts:269-273 | once a payment report is accepted a second report is rejected as already processed, so a failed payment is compensated once |

## Left out

- Concurrency. The place-order handler runs several statements on one pooled connection with
  no transaction, and settlement checks the status, then updates it. Each handler is modelled
  as one atomic step. The model says nothing about interleavings or about a failure partway
  through the writes.
- HTTP, Express and JWT. Routing, status codes and the `authUser`/`authSeller` middleware
  (which calls `jwt.verify`) are replaced by the `Result` datatype and an id parameter. The
  settlement route takes no user and is modelled that way.
- Request validation is reduced to its constraints, which give `InvalidRequest`. The uuid
  format checks on ids are left out: a malformed id is modelled as an unknown id (not found).
  onlynode's validation middleware is not part of this model; it is taken to enforce the same
  schemas as the server's.
- Numbers are exact. `DECIMAL(10,2)` rounding on storage and JavaScript floating-point
  arithmetic are not modelled. JSON values of other types (strings for numbers and the like)
  are not modelled either; request numbers are `real`.
- Row order. Order lists are `ORDER BY created_at DESC`. `Store.Shop.ListOrders` returns the
  user's orders as a map keyed by id, without that order.
- `Store.Shop.PlaceOrder`: the cart select at server/routes/orders.ts:46-51 has no ORDER BY, so
  the database may return the rows in any order. The model returns them in cart table order.
  That order decides which product `InsufficientStock` names when several are short (see
  `Checkout.FindShortage`) and the order in which order lines are written; the set of rows, the
  totals and the stock moves do not depend on it.
- Order-line ids are generated by the place-order handler with `uuidv4()`
  (server/routes/orders.ts:115). Order-line and order creation times are set by the database.
  The get-order and order-list handlers return them, but no handler's logic reads either, so
  they are not modelled.
- `Store.Shop.ListOrders`: the select reads id, total_price, discount_amount,
  wallet_points_used, payment_status, order_status and created_at. The model returns
  `OrderListing` values with those columns except created_at.
- `Pricing.CouponApplies`: the code comparison is exact string equality. coupons.code
  (server/config/database.ts:58) uses MySQL's default collation, which compares
  case-insensitively and accent-insensitively, so the database also matches codes that differ
  only in case or accents.
- Ids are compared by exact string equality: `CartTable.OwnsLine` and every lookup of a
  product, order, seller, user or order line by id. The id columns are VARCHAR(36) with MySQL's
  default collation (server/config/database.ts:19-110), which compares case-insensitively, and
  the request schemas accept upper-case hexadecimal uuids. The database therefore also matches
  an id that differs from the stored one only in letter case. The model treats such an id as
  unknown (not found), in `Store.Shop.AddToCart`, `Store.Shop.UpdateCartItem`,
  `Store.Shop.RemoveCartItem`, `Store.Shop.GetOrder`, `Store.Shop.SettlePayment`,
  `Store.Shop.GetProduct`, `Store.Shop.UpdateStock` and `Store.Shop.DeleteProduct`.
- `Store.ProductInputValid`: name and description lengths are counted in Unicode scalar values
  (Dafny `char`s). Joi counts UTF-16 code units, so a name with characters outside the Basic
  Multilingual Plane is longer for Joi than for the model.
- Request numbers outside the safe-integer range of 2^53 - 1 are rejected by the request schemas
  with a 400. `Store.OrderRequestValid` states this bound for the wallet amount. For quantities,
  stocks and prices the column bounds below are smaller, and the model states neither.
- Column widths are not modelled. The database rejects values past a column's bounds with an
  error, which the handlers answer with a 500 and no further writes; the model accepts them.
  The lines below name each handler this affects.
- `Store.Shop.PlaceOrder`: orders.coupon_code is VARCHAR(50) (server/config/database.ts:97)
  and the request schema sets no maximum length (server/middleware/validation.ts:94). A longer
  code fails the order insert in the source; the model places the order.
- `Store.Shop.AddToCart`: cart.quantity is INT (server/config/database.ts:81). A quantity, or
  an incremented quantity, of 2^31 or more is refused by the database; the model stores it.
- `Store.Shop.UpdateCartItem`: the same INT bound on cart.quantity is not modelled.
- `Store.Shop.UpdateStock`: products.stock is INT (server/config/database.ts:48). A stock of
  2^31 or more is refused by the database; the model stores it.
- `Store.Shop.AddProduct`: products.price is DECIMAL(10,2) and products.stock is INT
  (server/config/database.ts:47-48). A price of 10^8 or more, or a stock of 2^31 or more, is
  refused by the database; the model inserts the product.
- The cart listing (`GET /cart/items`) and the seller's product listings (`GET
  /products/my-products` and `GET /products/all`) are read-only and not modelled.
  `Store.Shop.GetProduct` returns the product row without the seller's shop name from the
  join.
- `Store.Shop.AddProduct`: the server inserts the product and lets the foreign key refuse an
  unknown seller (a 500). onlynode checks the seller first (a 400). Both are modelled as the
  single rejection `UnknownSeller`, with nothing inserted.
- `Store.Shop.GetOrder`: the items query (server/routes/orders.ts:188-192) returns every
  column of each order line plus the product's name from a join with `products`. No product
  with order lines can be deleted, so the join drops no line. The model returns the order's
  lines without their ids, creation times and product names.
- Registration, login, seller registration and coupon administration are left out. Sellers,
  coupons and coupon assignments are constant fields of `Shop`, and the initial users and
  products are constructor parameters.
- `Store.Shop.PlaceOrder` and `Store.Shop.CheckOut` require `orderId` to be new, and
  `Store.Shop.AddToCart` requires `freshId` to be new. These stand for `uuidv4()`.
- `Store.Shop.AddProduct` requires `productId` to be new. This also stands for `uuidv4()`.

=== FILE: cart_table.dfy ===
/** The cart table in storage order, and the row-level statements the cart handlers run on it:
    selections and deletions by a WHERE condition, the quantity updates, and the add-or-increment
    upsert. */
module CartTable {
  import opened ShopTypes

  /** The rows satisfying a WHERE condition, in table order. */
  function KeepLines(cart: seq<CartLine>, keep: CartLine -> bool): (kept: seq<CartLine>)
    ensures |kept| <= |cart|
    ensures forall l :: l in kept <==> l in cart && keep(l)
  {
    if |cart| == 0 then []
    else KeepLines(cart[..|cart| - 1], keep) + (if keep(cart[|cart| - 1]) then [cart[|cart| - 1]] else [])
  }

  function OfUser(user: UserId): CartLine -> bool
  {
    (l: CartLine) => l.user == user
  }

  function NotOfUser(user: UserId): CartLine -> bool
  {
    (l: CartLine) => l.user != user
  }

  function NotLine(id: CartId): CartLine -> bool
  {
    (l: CartLine) => l.id != id
  }

  function NotProduct(product: ProductId): CartLine -> bool
  {
    (l: CartLine) => l.product != product
  }

  /** `SELECT ... WHERE user_id = ?` */
  function LinesOf(cart: seq<CartLine>, user: UserId): seq<CartLine>
  {
    KeepLines(cart, OfUser(user))
  }

  /** `DELETE FROM cart WHERE user_id = ?` */
  function WithoutUser(cart: seq<CartLine>, user: UserId): seq<CartLine>
  {
    KeepLines(cart, NotOfUser(user))
  }

  /** Two rows differ in their primary key and in their (user, product) unique key. */
  predicate DistinctLines(a: CartLine, b: CartLine)
  {
    a.id != b.id && (a.user != b.user || a.product != b.product)
  }

  /** The table's primary key and its unique (user, product) key hold. */
  ghost predicate CartUnique(cart: seq<CartLine>)
  {
    forall i, j :: 0 <= i < j < |cart| ==> DistinctLines(cart[i], cart[j])
  }

  lemma {:induction false} KeepLinesUnique(cart: seq<CartLine>, keep: CartLine -> bool)
    requires CartUnique(cart)
    ensures CartUnique(KeepLines(cart, keep))
  {
    if |cart| > 0 {
      var n := |cart| - 1;
      var prefix := cart[..n];
      assert CartUnique(prefix) by {
        forall i, j | 0 <= i < j < |prefix| ensures DistinctLines(prefix[i], prefix[j]) {
          assert prefix[i] == cart[i] && prefix[j] == cart[j];
        }
      }
      KeepLinesUnique(prefix, keep);
      var kept' := KeepLines(prefix, keep);
      var kept := KeepLines(cart, keep);
      if keep(cart[n]) {
        assert kept == kept' + [cart[n]];
        forall i, j | 0 <= i < j < |kept| ensures DistinctLines(kept[i], kept[j]) {
          if j == |kept'| {
            assert kept[i] == kept'[i] && kept'[i] in kept';
            var k :| 0 <= k < |prefix| && prefix[k] == kept'[i];
            assert DistinctLines(cart[k], cart[n]);
          } else {
            assert kept[i] == kept'[i] && kept[j] == kept'[j];
          }
        }
      } else {
        assert kept == kept';
      }
    }
  }

  lemma {:induction false} KeepLinesAppend(a: seq<CartLine>, b: seq<CartLine>, keep: CartLine -> bool)
    ensures KeepLines(a + b, keep) == KeepLines(a, keep) + KeepLines(b, keep)
    decreases |b|
  {
    if |b| > 0 {
      var n := |b| - 1;
      assert (a + b)[..|a + b| - 1] == a + b[..n];
      assert (a + b)[|a + b| - 1] == b[n];
      KeepLinesAppend(a, b[..n], keep);
    } else {
      assert a + b == a;
    }
  }

  /** Selecting with `keep` and then with a stricter `select` is selecting with `select`. */
  lemma {:induction false} KeepLinesNested(cart: seq<CartLine>, keep: CartLine -> bool, select: CartLine -> bool)
    requires forall l :: select(l) ==> keep(l)
    ensures KeepLines(KeepLines(cart, keep), select) == KeepLines(cart, select)
  {
    if |cart| > 0 {
      var n := |cart| - 1;
      var x := cart[n];
      KeepLinesNested(cart[..n], keep, select);
      assert KeepLines(cart, select) == KeepLines(cart[..n], select) + (if select(x) then [x] else []);
      if keep(x) {
        assert KeepLines(cart, keep) == KeepLines(cart[..n], keep) + [x];
        KeepLinesAppend(KeepLines(cart[..n], keep), [x], select);
        assert [x][..0] == [];
        assert KeepLines([x], select) == KeepLines([], select) + (if select(x) then [x] else []);
      } else {
        assert KeepLines(cart, keep) == KeepLines(cart[..n], keep) + [];
        assert KeepLines(cart, keep) == KeepLines(cart[..n], keep);
        assert !select(x);
        assert KeepLines(cart, select) == KeepLines(cart[..n], select);
      }
    }
  }

  lemma KeepNothing(cart: seq<CartLine>, keep: CartLine -> bool)
    requires forall l :: l in cart ==> !keep(l)
    ensures KeepLines(cart, keep) == []
  {
  }

  /** Clearing a user's cart removes every line of that user and keeps every other user's lines,
      in order. */
  lemma ClearCartEffect(cart: seq<CartLine>, user: UserId)
    ensures LinesOf(WithoutUser(cart, user), user) == []
    ensures forall other :: other != user ==> LinesOf(WithoutUser(cart, user), other) == LinesOf(cart, other)
  {
    KeepNothing(WithoutUser(cart, user), OfUser(user));
    forall other | other != user
      ensures LinesOf(WithoutUser(cart, user), other) == LinesOf(cart, other)
    {
      KeepLinesNested(cart, NotOfUser(user), OfUser(other));
    }
  }

  /** The first row with this (user, product) key, if any. */
  function FindLine(cart: seq<CartLine>, user: UserId, product: ProductId): (found: Option<CartLine>)
    ensures found.Some? ==> found.value in cart && found.value.user == user && found.value.product == product
    ensures found.None? ==> forall l :: l in cart ==> !(l.user == user && l.product == product)
  {
    if |cart| == 0 then None
    else if cart[0].user == user && cart[0].product == product then Some(cart[0])
    else
      var rest := FindLine(cart[1..], user, product);
      assert forall l :: l in cart ==> l == cart[0] || l in cart[1..];
      rest
  }

  /** `SELECT * FROM cart WHERE id = ? AND user_id = ?` finds a row. */
  predicate OwnsLine(cart: seq<CartLine>, user: UserId, id: CartId)
  {
    exists l :: l in cart && l.id == id && l.user == user
  }

  /** `UPDATE cart SET quantity = ? WHERE id = ?` */
  function SetQuantity(cart: seq<CartLine>, id: CartId, quantity: int): (updated: seq<CartLine>)
    ensures |updated| == |cart|
  {
    seq(|cart|, i requires 0 <= i < |cart| => if cart[i].id == id then cart[i].(quantity := quantity) else cart[i])
  }

  /** `UPDATE cart SET quantity = quantity + ? WHERE id = ?` */
  function AddQuantity(cart: seq<CartLine>, id: CartId, quantity: int): (updated: seq<CartLine>)
    ensures |updated| == |cart|
  {
    seq(|cart|, i requires 0 <= i < |cart| => if cart[i].id == id then cart[i].(quantity := cart[i].quantity + quantity) else cart[i])
  }

  /** Add to cart: increment the user's existing line for the product, or insert a new line. */
  function Upsert(cart: seq<CartLine>, user: UserId, product: ProductId, quantity: int, freshId: CartId): seq<CartLine>
  {
    match FindLine(cart, user, product)
    case Some(line) => AddQuantity(cart, line.id, quantity)
    case None => cart + [CartLine(freshId, user, product, quantity)]
  }

  /** The upsert keeps one line per (user, product): an existing line grows by the quantity and
      nothing is inserted, otherwise exactly one new line carries the quantity. */
  lemma UpsertEffect(cart: seq<CartLine>, user: UserId, product: ProductId, quantity: int, freshId: CartId)
    requires CartUnique(cart)
    requires forall l :: l in cart ==> l.id != freshId
    ensures CartUnique(Upsert(cart, user, product, quantity, freshId))
    ensures FindLine(cart, user, product).Some? ==>
              var line := FindLine(cart, user, product).value;
              var updated := Upsert(cart, user, product, quantity, freshId);
              && |updated| == |cart|
              && forall i :: 0 <= i < |cart| ==>
                   updated[i] == if cart[i] == line then line.(quantity := line.quantity + quantity) else cart[i]
    ensures FindLine(cart, user, product).None? ==>
              Upsert(cart, user, product, quantity, freshId) == cart + [CartLine(freshId, user, product, quantity)]
  {
    var updated := Upsert(cart, user, product, quantity, freshId);
    match FindLine(cart, user, product)
    case Some(line) =>
      var k :| 0 <= k < |cart| && cart[k] == line;
      forall i | 0 <= i < |cart|
        ensures updated[i] == if cart[i] == line then line.(quantity := line.quantity + quantity) else cart[i]
      {
        if i != k {
          assert DistinctLines(cart[i], cart[k]) by {
            if i < k { } else { assert DistinctLines(cart[k], cart[i]); }
          }
        }
      }
      forall i, j | 0 <= i < j < |updated| ensures DistinctLines(updated[i], updated[j]) {
        assert DistinctLines(cart[i], cart[j]);
      }
    case None =>
      forall i, j | 0 <= i < j < |updated| ensures DistinctLines(updated[i], updated[j]) {
        if j < |cart| {
          assert DistinctLines(cart[i], cart[j]);
        } else {
          assert cart[i] in cart;
        }
      }
  }

  /** Changing a quantity keeps every key. */
  lemma SetQuantityUnique(cart: seq<CartLine>, id: CartId, quantity: int)
    requires CartUnique(cart)
    ensures CartUnique(SetQuantity(cart, id, quantity))
    ensures forall l :: l in SetQuantity(cart, id, quantity) ==>
              exists m :: m in cart && m.id == l.id && m.user == l.user && m.product == l.product
  {
    var updated := SetQuantity(cart, id, quantity);
    forall i, j | 0 <= i < j < |updated| ensures DistinctLines(updated[i], updated[j]) {
      assert DistinctLines(cart[i], cart[j]);
    }
    forall l | l in updated
      ensures exists m :: m in cart && m.id == l.id && m.user == l.user && m.product == l.product
    {
      var i :| 0 <= i < |updated| && updated[i] == l;
      assert cart[i] in cart;
    }
  }
}

=== FILE: checkout.dfy ===
/** What checkout and payment settlement do to the products and order_items tables: the cart
    joined with live prices and stock, the stock check, the order lines written from the cart,
    and the stock withdrawn at checkout and restored on a failed payment. */
module Checkout {
  import opened ShopTypes
  import opened Pricing
  import opened CartTable

  /** Stock is never negative and prices are positive. */
  ghost predicate ProductsValid(products: map<ProductId, Product>)
  {
    forall pid :: pid in products ==> products[pid].stock >= 0 && products[pid].price > 0.0
  }

  /** The join condition and the WHERE clause of the checkout query. */
  function Joined(user: UserId, products: map<ProductId, Product>): CartLine -> bool
  {
    (l: CartLine) => l.user == user && l.product in products
  }

  /** Each line with its product's price and stock; every line's product exists. */
  function Priced(lines: seq<CartLine>, products: map<ProductId, Product>): seq<CartRow>
    requires forall l :: l in lines ==> l.product in products
  {
    seq(|lines|, i requires 0 <= i < |lines| =>
      var l := lines[i];
      assert l in lines;
      CartRow(l, products[l.product].price, products[l.product].stock))
  }

  /** The user's cart lines, in table order, each with its product's live price and stock. */
  function CartRows(cart: seq<CartLine>, products: map<ProductId, Product>, user: UserId): seq<CartRow>
  {
    Priced(KeepLines(cart, Joined(user, products)), products)
  }

  /** The rows are the user's cart lines whose product exists, in table order, each priced from the
      products table; there are none exactly when no line of the user has an existing product. */
  lemma CartRowsJoin(cart: seq<CartLine>, products: map<ProductId, Product>, user: UserId)
    ensures var rows := CartRows(cart, products, user);
            && (forall i :: 0 <= i < |rows| ==>
                  && rows[i].line in cart
                  && rows[i].line.user == user
                  && rows[i].line.product in products
                  && rows[i].price == products[rows[i].line.product].price
                  && rows[i].stock == products[rows[i].line.product].stock)
            && (rows == [] <==> forall l :: l in cart && l.user == user ==> l.product !in products)
  {
    var lines := KeepLines(cart, Joined(user, products));
    assert forall i :: 0 <= i < |lines| ==> lines[i] in lines;
    if lines != [] {
      assert lines[0] in lines;
    }
  }

  /** The join drops no line: every cart line of the user whose product exists is a row. */
  lemma CartRowsComplete(cart: seq<CartLine>, products: map<ProductId, Product>, user: UserId)
    ensures var rows := CartRows(cart, products, user);
            forall l :: l in cart && l.user == user && l.product in products ==>
              exists k :: 0 <= k < |rows| && rows[k].line == l
  {
    var lines := KeepLines(cart, Joined(user, products));
    var rows := CartRows(cart, products, user);
    forall l | l in cart && l.user == user && l.product in products
      ensures exists k :: 0 <= k < |rows| && rows[k].line == l
    {
      assert Joined(user, products)(l);
      var k :| 0 <= k < |lines| && lines[k] == l;
      assert rows[k].line == l;
    }
  }

  /** With one cart line per (user, product), no product occurs twice among a user's rows. */
  lemma RowsHaveDistinctProducts(cart: seq<CartLine>, products: map<ProductId, Product>, user: UserId)
    requires CartUnique(cart)
    ensures var rows := CartRows(cart, products, user);
            forall i, j :: 0 <= i < j < |rows| ==> rows[i].line.product != rows[j].line.product
  {
    var lines := KeepLines(cart, Joined(user, products));
    KeepLinesUnique(cart, Joined(user, products));
    var rows := CartRows(cart, products, user);
    forall i, j | 0 <= i < j < |rows| ensures rows[i].line.product != rows[j].line.product {
      assert lines[i] in lines && lines[j] in lines;
      assert DistinctLines(lines[i], lines[j]);
    }
  }

  /** Every row asks for no more than the product's stock. */
  predicate StockCovers(rows: seq<CartRow>)
  {
    forall i :: 0 <= i < |rows| ==> rows[i].line.quantity <= rows[i].stock
  }

  /** The stock check loop: the first row asking for more than the stock, if any. */
  method FindShortage(rows: seq<CartRow>) returns (shortage: Option<nat>)
    ensures shortage.None? <==> StockCovers(rows)
    ensures shortage.Some? ==>
              && shortage.value < |rows|
              && rows[shortage.value].line.quantity > rows[shortage.value].stock
              && StockCovers(rows[..shortage.value])
  {
    for i := 0 to |rows|
      invariant StockCovers(rows[..i])
    {
      if rows[i].line.quantity > rows[i].stock {
        return Some(i);
      }
      assert forall k :: 0 <= k < i + 1 ==> rows[..i + 1][k] == rows[k];
    }
    assert rows[..|rows|] == rows;
    return None;
  }

  /** The order lines written for the rows: each line's quantity at the product's current price. */
  function ItemsFor(order: OrderId, rows: seq<CartRow>): seq<OrderItem>
  {
    seq(|rows|, i requires 0 <= i < |rows| => OrderItem(order, rows[i].line.product, rows[i].line.quantity, rows[i].price))
  }

  /** The order lines written for a cart of positive quantities belong to the order, name existing
      products and have positive quantities. */
  lemma ItemsForValid(cart: seq<CartLine>, products: map<ProductId, Product>, user: UserId, order: OrderId)
    requires forall l :: l in cart ==> l.quantity >= 1
    ensures forall it :: it in ItemsFor(order, CartRows(cart, products, user)) ==>
              it.order == order && it.product in products && it.quantity >= 1
  {
    var rows := CartRows(cart, products, user);
    CartRowsJoin(cart, products, user);
    forall it | it in ItemsFor(order, rows) ensures it.order == order && it.product in products && it.quantity >= 1 {
      var k :| 0 <= k < |rows| && ItemsFor(order, rows)[k] == it;
      assert rows[k].line in cart;
    }
  }

  /** The (product, quantity) pairs checkout withdraws from stock. */
  function RowMoves(rows: seq<CartRow>): seq<(ProductId, int)>
  {
    seq(|rows|, i requires 0 <= i < |rows| => (rows[i].line.product, rows[i].line.quantity))
  }

  /** The (product, quantity) pairs a failed payment puts back on stock. */
  function ItemMoves(items: seq<OrderItem>): seq<(ProductId, int)>
  {
    seq(|items|, i requires 0 <= i < |items| => (items[i].product, items[i].quantity))
  }

  /** The order lines restore exactly what the cart rows withdrew. */
  lemma ItemMovesOfItemsFor(order: OrderId, rows: seq<CartRow>)
    ensures ItemMoves(ItemsFor(order, rows)) == RowMoves(rows)
  {
  }

  /** The total quantity the moves carry for one product. */
  function QuantityOf(moves: seq<(ProductId, int)>, product: ProductId): int
  {
    if |moves| == 0 then 0
    else QuantityOf(moves[..|moves| - 1], product) + (if moves[|moves| - 1].0 == product then moves[|moves| - 1].1 else 0)
  }

  lemma QuantityOfSnoc(moves: seq<(ProductId, int)>, move: (ProductId, int), product: ProductId)
    ensures QuantityOf(moves + [move], product) == QuantityOf(moves, product) + (if move.0 == product then move.1 else 0)
  {
    assert (moves + [move])[..|moves|] == moves;
  }

  lemma {:induction false} QuantityOfNonNegative(moves: seq<(ProductId, int)>, product: ProductId)
    requires forall i :: 0 <= i < |moves| ==> moves[i].1 >= 0
    ensures QuantityOf(moves, product) >= 0
  {
    if |moves| > 0 {
      QuantityOfNonNegative(moves[..|moves| - 1], product);
    }
  }

  /** A product that no move names moves by nothing. */
  lemma {:induction false} QuantityOfAbsent(moves: seq<(ProductId, int)>, product: ProductId)
    requires forall k :: 0 <= k < |moves| ==> moves[k].0 != product
    ensures QuantityOf(moves, product) == 0
  {
    if |moves| > 0 {
      QuantityOfAbsent(moves[..|moves| - 1], product);
    }
  }

  /** When no product repeats, a product's total is the quantity of its one move, or 0. */
  lemma {:induction false} QuantityOfDistinct(moves: seq<(ProductId, int)>, product: ProductId)
    requires forall i, j :: 0 <= i < j < |moves| ==> moves[i].0 != moves[j].0
    ensures forall k :: 0 <= k < |moves| && moves[k].0 == product ==> QuantityOf(moves, product) == moves[k].1
    ensures (forall k :: 0 <= k < |moves| ==> moves[k].0 != product) ==> QuantityOf(moves, product) == 0
  {
    if |moves| > 0 {
      var n := |moves| - 1;
      QuantityOfDistinct(moves[..n], product);
      forall k | 0 <= k < |moves| && moves[k].0 == product ensures QuantityOf(moves, product) == moves[k].1 {
        if k < n {
          assert moves[..n][k] == moves[k];
          assert moves[n].0 != product;
        } else {
          assert forall k' :: 0 <= k' < n ==> moves[..n][k'].0 != product;
        }
      }
    }
  }

  /** `UPDATE products SET stock = stock + ? WHERE id = ?`: no row changes for an unknown id. */
  function Shifted(products: map<ProductId, Product>, product: ProductId, delta: int): map<ProductId, Product>
  {
    if product in products then products[product := products[product].(stock := products[product].stock + delta)]
    else products
  }

  /** The products table after the moves are taken off stock. */
  function Withdrawn(products: map<ProductId, Product>, moves: seq<(ProductId, int)>): map<ProductId, Product>
  {
    map pid | pid in products :: products[pid].(stock := products[pid].stock - QuantityOf(moves, pid))
  }

  /** The products table after the moves are put back on stock. */
  function Restocked(products: map<ProductId, Product>, moves: seq<(ProductId, int)>): map<ProductId, Product>
  {
    map pid | pid in products :: products[pid].(stock := products[pid].stock + QuantityOf(moves, pid))
  }

  lemma WithdrawnNothing(products: map<ProductId, Product>)
    ensures Withdrawn(products, []) == products && Restocked(products, []) == products
  {
    assert Withdrawn(products, []).Keys == products.Keys;
    assert Restocked(products, []).Keys == products.Keys;
  }

  lemma WithdrawStep(products: map<ProductId, Product>, moves: seq<(ProductId, int)>, move: (ProductId, int))
    ensures Withdrawn(products, moves + [move]) == Shifted(Withdrawn(products, moves), move.0, -move.1)
    ensures Restocked(products, moves + [move]) == Shifted(Restocked(products, moves), move.0, move.1)
  {
    forall pid ensures QuantityOf(moves + [move], pid) == QuantityOf(moves, pid) + (if move.0 == pid then move.1 else 0) {
      QuantityOfSnoc(moves, move, pid);
    }
  }

  /** One more turn of checkout's write loop: the next row's line is written and its quantity
      taken off stock. */
  lemma WriteRowStep(products: map<ProductId, Product>, order: OrderId, rows: seq<CartRow>, i: nat)
    requires i < |rows|
    ensures Withdrawn(products, RowMoves(rows[..i + 1]))
            == Shifted(Withdrawn(products, RowMoves(rows[..i])), rows[i].line.product, -rows[i].line.quantity)
    ensures ItemsFor(order, rows[..i + 1])
            == ItemsFor(order, rows[..i]) + [OrderItem(order, rows[i].line.product, rows[i].line.quantity, rows[i].price)]
  {
    assert RowMoves(rows[..i + 1]) == RowMoves(rows[..i]) + [(rows[i].line.product, rows[i].line.quantity)];
    WithdrawStep(products, RowMoves(rows[..i]), (rows[i].line.product, rows[i].line.quantity));
  }

  /** One more turn of the restore loop: the next order line's quantity goes back on stock. */
  lemma RestoreItemStep(products: map<ProductId, Product>, items: seq<OrderItem>, i: nat)
    requires i < |items|
    ensures Restocked(products, ItemMoves(items[..i + 1]))
            == Shifted(Restocked(products, ItemMoves(items[..i])), items[i].product, items[i].quantity)
  {
    assert ItemMoves(items[..i + 1]) == ItemMoves(items[..i]) + [(items[i].product, items[i].quantity)];
    WithdrawStep(products, ItemMoves(items[..i]), (items[i].product, items[i].quantity));
  }

  /** Restocking what was withdrawn gives back the products table. */
  lemma RestockUndoesWithdraw(products: map<ProductId, Product>, moves: seq<(ProductId, int)>)
    ensures Restocked(Withdrawn(products, moves), moves) == products
  {
  }

  /** Putting order lines back on stock keeps every stock non-negative and every product id. */
  lemma RestockKeepsProductsValid(products: map<ProductId, Product>, items: seq<OrderItem>)
    requires ProductsValid(products)
    requires forall it :: it in items ==> it.quantity >= 1
    ensures ProductsValid(Restocked(products, ItemMoves(items)))
    ensures Restocked(products, ItemMoves(items)).Keys == products.Keys
  {
    var moves := ItemMoves(items);
    forall pid | pid in products ensures QuantityOf(moves, pid) >= 0 {
      forall i | 0 <= i < |moves| ensures moves[i].1 >= 0 {
        assert items[i] in items;
      }
      QuantityOfNonNegative(moves, pid);
    }
  }

  /** Checkout keeps every stock non-negative, given one cart line per (user, product) and every
      line within stock. */
  lemma CheckoutKeepsStockNonNegative(cart: seq<CartLine>, products: map<ProductId, Product>, user: UserId)
    requires ProductsValid(products) && CartUnique(cart)
    requires StockCovers(CartRows(cart, products, user))
    ensures ProductsValid(Withdrawn(products, RowMoves(CartRows(cart, products, user))))
  {
    var rows := CartRows(cart, products, user);
    var moves := RowMoves(rows);
    RowsHaveDistinctProducts(cart, products, user);
    forall pid | pid in products ensures products[pid].stock - QuantityOf(moves, pid) >= 0 {
      QuantityOfDistinct(moves, pid);
      if k :| 0 <= k < |moves| && moves[k].0 == pid {
        assert rows[k].line.quantity <= rows[k].stock;
      }
    }
  }

  /** Checkout takes exactly a row's quantity off that row's product. */
  lemma CheckoutWithdrawsRowQuantity(cart: seq<CartLine>, products: map<ProductId, Product>, user: UserId, k: nat)
    requires CartUnique(cart)
    requires k < |CartRows(cart, products, user)|
    ensures var row := CartRows(cart, products, user)[k];
            var after := Withdrawn(products, RowMoves(CartRows(cart, products, user)));
            && row.line.product in products && row.line.product in after
            && after[row.line.product] == products[row.line.product].(stock := row.stock - row.line.quantity)
  {
    var rows := CartRows(cart, products, user);
    var moves := RowMoves(rows);
    CartRowsJoin(cart, products, user);
    RowsHaveDistinctProducts(cart, products, user);
    assert forall i, j :: 0 <= i < j < |moves| ==> moves[i].0 != moves[j].0;
    assert moves[k] == (rows[k].line.product, rows[k].line.quantity);
    QuantityOfDistinct(moves, rows[k].line.product);
  }

  /** Checkout leaves a product that is in none of the rows untouched. */
  lemma CheckoutLeavesOtherProducts(cart: seq<CartLine>, products: map<ProductId, Product>, user: UserId, pid: ProductId)
    requires pid in products
    requires forall row :: row in CartRows(cart, products, user) ==> row.line.product != pid
    ensures var after := Withdrawn(products, RowMoves(CartRows(cart, products, user)));
            pid in after && after[pid] == products[pid]
  {
    var rows := CartRows(cart, products, user);
    var moves := RowMoves(rows);
    forall k | 0 <= k < |moves| ensures moves[k].0 != pid {
      assert rows[k] in rows;
    }
    QuantityOfAbsent(moves, pid);
  }

  /** `SELECT * FROM order_items WHERE order_id = ?`, in table order. */
  function ItemsOf(items: seq<OrderItem>, order: OrderId): seq<OrderItem>
  {
    if |items| == 0 then []
    else ItemsOf(items[..|items| - 1], order) + (if items[|items| - 1].order == order then [items[|items| - 1]] else [])
  }

  /** The selection holds exactly the lines of the order. */
  lemma {:induction false} ItemsOfMembers(items: seq<OrderItem>, order: OrderId)
    ensures forall it :: it in ItemsOf(items, order) <==> it in items && it.order == order
  {
    if |items| > 0 {
      var n := |items| - 1;
      ItemsOfMembers(items[..n], order);
      assert items == items[..n] + [items[n]];
    }
  }

  lemma {:induction false} ItemsOfNone(items: seq<OrderItem>, order: OrderId)
    requires forall it :: it in items ==> it.order != order
    ensures ItemsOf(items, order) == []
  {
    if |items| > 0 {
      assert items[|items| - 1] in items;
      ItemsOfNone(items[..|items| - 1], order);
    }
  }

  /** The lines of a new order are exactly the lines written for it. */
  lemma {:induction false} ItemsOfFresh(items: seq<OrderItem>, written: seq<OrderItem>, order: OrderId)
    requires forall it :: it in items ==> it.order != order
    requires forall it :: it in written ==> it.order == order
    ensures ItemsOf(items + written, order) == written
    decreases |written|
  {
    if |written| == 0 {
      assert items + written == items;
      ItemsOfNone(items, order);
    } else {
      var n := |written| - 1;
      var prefix := written[..n];
      var whole := items + written;
      assert forall i :: 0 <= i < n ==> prefix[i] == written[i];
      ItemsOfFresh(items, prefix, order);
      assert whole[..|whole| - 1] == items + prefix;
      assert whole[|whole| - 1] == written[n] && written[n] in written;
      assert ItemsOf(whole, order) == ItemsOf(items + prefix, order) + [written[n]];
      assert prefix + [written[n]] == written;
    }
  }
}

=== FILE: pricing.dfy ===
/** The price formula shared by the price preview and order placement: subtotal over the joined
    cart rows, coupon discount, capped wallet deduction, and a total clamped at zero. */
module Pricing {
  import opened ShopTypes

  /** One row of the cart joined with its product: the line with the product's live price and
      stock. */
  datatype CartRow = CartRow(line: CartLine, price: real, stock: int)

  /** The price breakdown of a cart; `itemCount` is None when the reply leaves the field out. */
  datatype Breakdown = Breakdown(subtotal: real, discount: real, walletDeduction: real, total: real, itemCount: Option<nat>)

  function LineAmount(row: CartRow): real
  {
    row.price * (row.line.quantity as real)
  }

  /** The sum of price times quantity over the rows. */
  function Subtotal(rows: seq<CartRow>): real
  {
    if |rows| == 0 then 0.0 else Subtotal(rows[..|rows| - 1]) + LineAmount(rows[|rows| - 1])
  }

  lemma {:induction false} SubtotalNonNegative(rows: seq<CartRow>)
    requires forall i :: 0 <= i < |rows| ==> rows[i].price >= 0.0 && rows[i].line.quantity >= 0
    ensures Subtotal(rows) >= 0.0
  {
    if |rows| > 0 {
      var last := rows[|rows| - 1];
      SubtotalNonNegative(rows[..|rows| - 1]);
      assert last.price * (last.line.quantity as real) >= 0.0;
    }
  }

  /** The accumulator loop of the checkout handler. */
  method SumSubtotal(rows: seq<CartRow>) returns (subtotal: real)
    ensures subtotal == Subtotal(rows)
  {
    subtotal := 0.0;
    for i := 0 to |rows|
      invariant subtotal == Subtotal(rows[..i])
    {
      assert rows[..i + 1][..i] == rows[..i];
      subtotal := subtotal + rows[i].price * (rows[i].line.quantity as real);
    }
    assert rows[..|rows|] == rows;
  }

  /** `subtotal * discount_percent / 100`. */
  function Discount(subtotal: real, percent: int): real
  {
    subtotal * (percent as real) / 100.0
  }

  lemma DiscountWithinSubtotal(subtotal: real, percent: int)
    requires subtotal >= 0.0 && 0 <= percent <= 100
    ensures 0.0 <= Discount(subtotal, percent) <= subtotal
  {
    var p := percent as real;
    var rest := 100.0 - p;
    assert 0.0 <= p && 0.0 <= rest;
    assert 0.0 <= subtotal * p by { MulNonNegative(subtotal, p); }
    assert 0.0 <= subtotal * rest by { MulNonNegative(subtotal, rest); }
    assert subtotal * p + subtotal * rest == subtotal * 100.0;
    assert Discount(subtotal, percent) == (subtotal * p) / 100.0;
  }

  lemma MulNonNegative(a: real, b: real)
    requires 0.0 <= a && 0.0 <= b
    ensures 0.0 <= a * b
  {
  }

  /** A coupon is looked up only when the request carries a non-empty code. */
  predicate CouponRequested(couponCode: Option<string>)
  {
    couponCode.Some? && couponCode.value != ""
  }

  /** The WHERE clause of the coupon query for one coupons row joined with the user_coupons rows:
      the code matches, the coupon is assigned to the user, and it has not expired at `now`. */
  predicate CouponApplies(c: Coupon, assignments: set<(UserId, CouponId)>, user: UserId, code: string, now: int)
  {
    && c.code == code
    && (user, c.id) in assignments
    && (c.validUntil.None? || c.validUntil.value > now)
  }

  /** The coupons the coupon query returns, in table order. */
  function CouponQuery(coupons: seq<Coupon>, assignments: set<(UserId, CouponId)>, user: UserId, code: string, now: int): (found: seq<Coupon>)
    ensures forall c :: c in found <==> c in coupons && CouponApplies(c, assignments, user, code, now)
  {
    if |coupons| == 0 then []
    else
      var last := coupons[|coupons| - 1];
      CouponQuery(coupons[..|coupons| - 1], assignments, user, code, now)
        + (if CouponApplies(last, assignments, user, code, now) then [last] else [])
  }

  /** The coupons table's unique code key. */
  ghost predicate CodesUnique(coupons: seq<Coupon>)
  {
    forall i, j :: 0 <= i < j < |coupons| ==> coupons[i].code != coupons[j].code
  }

  /** The discount percentage the request earns: that of the first coupon the query returns for a
      non-empty code, and none otherwise. */
  function DiscountPercent(coupons: seq<Coupon>, assignments: set<(UserId, CouponId)>, user: UserId, couponCode: Option<string>, now: int): (percent: int)
    ensures percent != 0 ==>
              && CouponRequested(couponCode)
              && exists c :: c in coupons && CouponApplies(c, assignments, user, couponCode.value, now) && c.percent == percent
  {
    if CouponRequested(couponCode) then
      var found := CouponQuery(coupons, assignments, user, couponCode.value, now);
      assert |found| > 0 ==> found[0] in found;
      if |found| > 0 then found[0].percent else 0
    else
      0
  }

  /** The coupon rule: with unique codes, a non-empty code earns exactly the percentage of the coupon
      with that code when it is assigned to the user and unexpired; an absent, empty, unknown,
      unassigned or expired code earns none. */
  lemma DiscountPercentRule(coupons: seq<Coupon>, assignments: set<(UserId, CouponId)>, user: UserId, couponCode: Option<string>, now: int)
    requires CodesUnique(coupons)
    ensures forall c :: c in coupons && CouponRequested(couponCode) && CouponApplies(c, assignments, user, couponCode.value, now)
              ==> DiscountPercent(coupons, assignments, user, couponCode, now) == c.percent
    ensures (!CouponRequested(couponCode) || forall c :: c in coupons ==> !CouponApplies(c, assignments, user, couponCode.value, now))
              ==> DiscountPercent(coupons, assignments, user, couponCode, now) == 0
  {
    if CouponRequested(couponCode) {
      var code := couponCode.value;
      var found := CouponQuery(coupons, assignments, user, code, now);
      forall c | c in coupons && CouponApplies(c, assignments, user, code, now)
        ensures DiscountPercent(coupons, assignments, user, couponCode, now) == c.percent
      {
        assert c in found;
        assert found[0] in found;
        var i :| 0 <= i < |coupons| && coupons[i] == c;
        var j :| 0 <= j < |coupons| && coupons[j] == found[0];
        assert coupons[i].code == coupons[j].code;
      }
      if forall c :: c in coupons ==> !CouponApplies(c, assignments, user, code, now) {
        if |found| > 0 {
          assert found[0] in found;
        }
      }
    }
  }

  /** The wallet is consulted only for a positive request. */
  predicate WalletRequested(request: Option<real>)
  {
    request.Some? && request.value > 0.0
  }

  /** `min(requested, balance)` for a positive request, otherwise nothing. */
  function WalletUsed(request: Option<real>, balance: int): (used: real)
    ensures !WalletRequested(request) ==> used == 0.0
    ensures WalletRequested(request) ==> used <= request.value && used <= balance as real
    ensures WalletRequested(request) ==> used == request.value || used == balance as real
    ensures balance >= 0 ==> used >= 0.0
  {
    if !WalletRequested(request) then 0.0
    else if request.value <= balance as real then request.value
    else balance as real
  }

  /** For a whole request the deduction is whole, so it can be debited from the integer wallet. */
  lemma WalletUsedWhole(request: Option<real>, balance: int)
    requires request.None? || IsWhole(request.value)
    ensures WalletUsed(request, balance) == (if WalletRequested(request) then Min(request.value.Floor, balance) else 0) as real
  {
  }

  function Min(a: int, b: int): int
  {
    if a <= b then a else b
  }

  /** `max(0, subtotal - discount - wallet)`. */
  function Total(subtotal: real, discount: real, wallet: real): (total: real)
    ensures total >= 0.0 && total >= subtotal - discount - wallet
    ensures total == 0.0 || total == subtotal - discount - wallet
  {
    if subtotal - discount - wallet > 0.0 then subtotal - discount - wallet else 0.0
  }
}

=== FILE: scenarios.dfy ===
/** Request sequences a client runs against the shop: the checkout page places an order and then
    reports the payment outcome. */
module Scenarios {
  import opened ShopTypes
  import opened Checkout
  import opened Store

  /** Place an order and report the payment as failed: when the order is placed, the settlement
      succeeds, cancels the order, and every stock and wallet is back to its value before the
      order. */
  method PlaceThenFail(shop: Shop, user: UserId, couponCode: Option<string>, walletRequest: Option<real>, now: int, orderId: OrderId)
    returns (placed: Result<OrderSummary>, settled: Option<Result<Settlement>>)
    requires shop.Valid() && orderId !in shop.orders
    modifies shop`products, shop`wallets, shop`cart, shop`orders, shop`orderItems
    ensures shop.Valid()
    ensures placed.Err? ==> settled.None? && shop.State() == old(shop.State())
    ensures placed.Ok? ==>
              && settled == Some(Ok(Settlement(orderId, PaymentFailed, OrderCancelled)))
              && shop.products == old(shop.products)
              && shop.wallets == old(shop.wallets)
              && orderId in shop.orders && shop.orders[orderId].status == OrderCancelled
  {
    ghost var before := shop.State();
    placed := shop.PlaceOrder(user, couponCode, walletRequest, now, orderId);
    if placed.Err? {
      return placed, None;
    }
    var r := FailPlaced(shop, before, user, couponCode, walletRequest, now, orderId, placed.value);
    settled := Some(r);
  }

  /** The second half of PlaceThenFail: the payment for the order just placed is reported failed. */
  method FailPlaced(shop: Shop, ghost before: Tables, user: UserId, couponCode: Option<string>,
                    walletRequest: Option<real>, now: int, orderId: OrderId, summary: OrderSummary)
    returns (r: Result<Settlement>)
    requires shop.Valid()
    requires TablesValid(shop.sellers, before) && orderId !in before.orders
    requires CheckedOut(before, shop.State(), shop.coupons, shop.assignments, user, couponCode, walletRequest, now, orderId, summary)
    modifies shop`orders, shop`products, shop`wallets
    ensures shop.Valid()
    ensures r == Ok(Settlement(orderId, PaymentFailed, OrderCancelled))
    ensures shop.products == before.products && shop.wallets == before.wallets
    ensures orderId in shop.orders && shop.orders[orderId].status == OrderCancelled
  {
    CheckoutThenFailedPayment(before, shop.State(), shop.coupons, shop.assignments,
                              user, couponCode, walletRequest, now, orderId, summary);
    r := shop.SettlePayment(orderId, "failed");
  }

  /** Report a payment twice: once the first report is accepted the second is rejected as already
      processed, so a failed payment is compensated at most once. */
  method SettleTwice(shop: Shop, orderId: OrderId, first: string, second: string)
    returns (r1: Result<Settlement>, r2: Result<Settlement>)
    requires shop.Valid()
    modifies shop`orders, shop`products, shop`wallets
    ensures shop.Valid()
    ensures r1.Ok? && ParseOutcome(second).Some? ==> r2 == Err(PaymentAlreadyProcessed)
    ensures r1.Ok? && first == "success" ==> shop.products == old(shop.products) && shop.wallets == old(shop.wallets)
    ensures r1.Ok? && first == "failed" ==>
              && orderId in old(shop.orders)
              && shop.products == Restocked(old(shop.products), ItemMoves(ItemsOf(shop.orderItems, orderId)))
              && shop.wallets == Refunded(old(shop.wallets), old(shop.orders)[orderId].user, old(shop.orders)[orderId].walletPointsUsed)
  {
    r1 := shop.SettlePayment(orderId, first);
    r2 := shop.SettlePayment(orderId, second);
  }
}

=== FILE: shop_types.dfy ===
/** Rows of the shop's tables, the typed outcomes of its request handlers, and the request-shape
    checks that several handlers share. */
module ShopTypes {

  type UserId = string
  type SellerId = string
  type ProductId = string
  type CartId = string
  type OrderId = string
  type CouponId = string

  datatype Option<T> = None | Some(value: T)

  /** Every rejection a handler answers with, in place of an HTTP status and message. */
  datatype Error =
    | InvalidRequest                        // the request schema rejected the body (400)
    | MissingUserId                         // "user_id is required" (400)
    | MissingSellerId                       // "seller_id is required" (400)
    | UnknownSeller                         // the seller row does not exist
    | ProductNotFound                       // 404
    | CartItemNotFound                      // 404
    | OrderNotFound                         // 404
    | EmptyCart                             // "Cart is empty" (400)
    | InsufficientStock(product: ProductId) // "Insufficient stock for product ..." (400)
    | InvalidStockValue                     // 400
    | InvalidPaymentStatus                  // 400
    | PaymentAlreadyProcessed               // "Order payment already processed" (400)
    | StoreFailure                          // a statement the database refuses, or a missing row dereferenced (500)

  datatype Result<T> = Ok(value: T) | Err(error: Error)

  /** A products row: `price` is exact money, `stock` a count. */
  datatype Product = Product(seller: SellerId, name: string, description: Option<string>, price: real, stock: int)

  /** A cart row: one product in one user's cart. */
  datatype CartLine = CartLine(id: CartId, user: UserId, product: ProductId, quantity: int)

  /** A coupons row; `validUntil` is None for a coupon that never expires. */
  datatype Coupon = Coupon(id: CouponId, code: string, percent: int, validUntil: Option<int>)

  datatype PaymentStatus = PaymentPending | PaymentSuccess | PaymentFailed

  datatype OrderStatus = OrderPending | OrderProcessing | OrderShipped | OrderDelivered | OrderCancelled

  datatype Order = Order(
    user: UserId,
    totalPrice: real,
    discountAmount: real,
    walletPointsUsed: int,
    couponCode: Option<string>,
    payment: PaymentStatus,
    status: OrderStatus)

  /** An order_items row: the quantity bought and the unit price at the time of purchase. */
  datatype OrderItem = OrderItem(order: OrderId, product: ProductId, quantity: int, price: real)

  /** An id read from a request body or query is missing when it is absent or empty; both are
      written "" here. */
  predicate Present(id: string)
  {
    id != ""
  }

  /** `Number.isInteger` on a JSON number. */
  predicate IsWhole(x: real)
  {
    x.Floor as real == x
  }

  /** The schema rule for a cart quantity: an integer of at least 1. */
  predicate ValidQuantity(q: real)
  {
    IsWhole(q) && q >= 1.0
  }
}

=== FILE: store.dfy ===
/** The shop's tables as one object, with one method per request handler of the cart, order and
    product routes. The user or seller id is a parameter; "" stands for a request that carries
    none. Every handler runs its checks before its first write, so a rejected request changes
    nothing. */
module Store {
  import opened ShopTypes
  import opened Pricing
  import opened CartTable
  import opened Checkout

  /** The order fields the place-order reply carries. */
  datatype OrderSummary = OrderSummary(
    id: OrderId,
    totalPrice: real,
    discountAmount: real,
    walletPointsUsed: int,
    payment: PaymentStatus,
    couponCode: Option<string>)

  /** The columns the order list selects from an order row (its creation time aside). */
  datatype OrderListing = OrderListing(
    totalPrice: real,
    discountAmount: real,
    walletPointsUsed: int,
    payment: PaymentStatus,
    status: OrderStatus)

  function Listing(o: Order): OrderListing
  {
    OrderListing(o.totalPrice, o.discountAmount, o.walletPointsUsed, o.payment, o.status)
  }

  /** An order row with its lines. */
  datatype OrderView = OrderView(order: Order, items: seq<OrderItem>)

  /** The reply to a settled payment. */
  datatype Settlement = Settlement(order: OrderId, payment: PaymentStatus, status: OrderStatus)

  /** The payment outcomes a settlement accepts. */
  function ParseOutcome(status: string): (outcome: Option<PaymentStatus>)
    ensures outcome == Some(PaymentSuccess) <==> status == "success"
    ensures outcome == Some(PaymentFailed) <==> status == "failed"
    ensures outcome.None? <==> status != "success" && status != "failed"
  {
    if status == "success" then Some(PaymentSuccess)
    else if status == "failed" then Some(PaymentFailed)
    else None
  }

  /** The order status that goes with a settled payment. */
  function OrderStatusAfter(payment: PaymentStatus): OrderStatus
  {
    if payment == PaymentSuccess then OrderProcessing else OrderCancelled
  }

  /** `UPDATE users SET wallet_points = wallet_points + ? WHERE id = ?`, run only for a positive
      amount. */
  function Refunded(wallets: map<UserId, int>, user: UserId, amount: int): map<UserId, int>
  {
    if amount > 0 && user in wallets then wallets[user := wallets[user] + amount] else wallets
  }

  /** The largest integer a request number may hold: 2^53 - 1. */
  const MaxSafeInteger: real := 9007199254740991.0

  /** The place-order schema: a coupon code, if sent, is a non-empty string, and a wallet amount, if
      sent, is a non-negative integer no larger than `MaxSafeInteger`. */
  predicate OrderRequestValid(couponCode: Option<string>, walletRequest: Option<real>)
  {
    && (couponCode.None? || couponCode.value != "")
    && (walletRequest.None? || (IsWhole(walletRequest.value) && 0.0 <= walletRequest.value <= MaxSafeInteger))
  }

  /** The product schema: a name of 2 to 255 characters, an optional non-empty description of at
      most 2000, a positive price and a non-negative integer stock. */
  predicate ProductInputValid(name: string, description: Option<string>, price: real, stock: real)
  {
    && 2 <= |name| <= 255
    && (description.None? || 1 <= |description.value| <= 2000)
    && price > 0.0
    && IsWhole(stock) && stock >= 0.0
  }

  /** Some order line refers to the product. */
  predicate Referenced(items: seq<OrderItem>, product: ProductId)
  {
    exists it :: it in items && it.product == product
  }

  /** The price breakdown of the calculate-total handler over a snapshot of the tables. */
  function Quote(
    cart: seq<CartLine>, products: map<ProductId, Product>, wallets: map<UserId, int>,
    coupons: seq<Coupon>, assignments: set<(UserId, CouponId)>,
    user: UserId, couponCode: Option<string>, walletRequest: Option<real>, now: int): Result<Breakdown>
  {
    if !Present(user) then Err(MissingUserId)
    else
      var rows := CartRows(cart, products, user);
      if |rows| == 0 then Ok(Breakdown(0.0, 0.0, 0.0, 0.0, None))
      else if WalletRequested(walletRequest) && user !in wallets then Err(StoreFailure)
      else
        var subtotal := Subtotal(rows);
        var discount := Discount(subtotal, DiscountPercent(coupons, assignments, user, couponCode, now));
        var wallet := if WalletRequested(walletRequest) then WalletUsed(walletRequest, wallets[user]) else 0.0;
        Ok(Breakdown(subtotal, discount, wallet, Total(subtotal, discount, wallet), Some(|rows|)))
  }

  /** The calculate-total outcomes: a missing user id is rejected, an empty cart prices at zero
      with no item count, a wallet request from an unknown user fails, and otherwise the breakdown
      is the subtotal of the joined rows, the coupon discount, the capped wallet deduction and the
      clamped total. */
  lemma QuoteOutcomes(
    cart: seq<CartLine>, products: map<ProductId, Product>, wallets: map<UserId, int>,
    coupons: seq<Coupon>, assignments: set<(UserId, CouponId)>,
    user: UserId, couponCode: Option<string>, walletRequest: Option<real>, now: int)
    ensures var r := Quote(cart, products, wallets, coupons, assignments, user, couponCode, walletRequest, now);
            var rows := CartRows(cart, products, user);
            && (r == Err(MissingUserId) <==> !Present(user))
            && (r == Err(StoreFailure) <==> Present(user) && rows != [] && WalletRequested(walletRequest) && user !in wallets)
            && (r.Err? ==> r == Err(MissingUserId) || r == Err(StoreFailure))
            && (r.Ok? && rows == [] ==> r.value == Breakdown(0.0, 0.0, 0.0, 0.0, None))
            && (r.Ok? && rows != [] ==>
                  && r.value.itemCount == Some(|rows|)
                  && r.value.subtotal == Subtotal(rows)
                  && r.value.discount == Discount(r.value.subtotal, DiscountPercent(coupons, assignments, user, couponCode, now))
                  && (WalletRequested(walletRequest) ==> r.value.walletDeduction == WalletUsed(walletRequest, wallets[user]))
                  && (!WalletRequested(walletRequest) ==> r.value.walletDeduction == 0.0)
                  && r.value.total == Total(r.value.subtotal, r.value.discount, r.value.walletDeduction))
            && (r.Ok? ==> r.value.total >= 0.0)
  {
  }

  /** With positive prices, a coupon of at most 100 percent and a non-negative wallet, every part of
      the breakdown is non-negative, the discount is at most the subtotal, the wallet deduction at
      most the balance, and the total at most the subtotal. */
  lemma QuoteBounds(
    cart: seq<CartLine>, products: map<ProductId, Product>, wallets: map<UserId, int>,
    coupons: seq<Coupon>, assignments: set<(UserId, CouponId)>,
    user: UserId, couponCode: Option<string>, walletRequest: Option<real>, now: int)
    requires ProductsValid(products)
    requires forall l :: l in cart ==> l.quantity >= 1
    requires forall c :: c in coupons ==> 0 <= c.percent <= 100
    requires forall u :: u in wallets ==> wallets[u] >= 0
    ensures var r := Quote(cart, products, wallets, coupons, assignments, user, couponCode, walletRequest, now);
            r.Ok? ==>
              && 0.0 <= r.value.discount <= r.value.subtotal
              && 0.0 <= r.value.walletDeduction
              && (user in wallets ==> r.value.walletDeduction <= wallets[user] as real)
              && 0.0 <= r.value.total <= r.value.subtotal
  {
    var rows := CartRows(cart, products, user);
    if Present(user) && rows != [] {
      CartRowsJoin(cart, products, user);
      SubtotalNonNegative(rows);
      var percent := DiscountPercent(coupons, assignments, user, couponCode, now);
      DiscountWithinSubtotal(Subtotal(rows), percent);
    }
  }

  /** A request whose coupon code is absent, empty, or names no coupon assigned to the user and
      unexpired prices exactly like a request without a code. */
  lemma QuoteWithoutCoupon(
    cart: seq<CartLine>, products: map<ProductId, Product>, wallets: map<UserId, int>,
    coupons: seq<Coupon>, assignments: set<(UserId, CouponId)>,
    user: UserId, couponCode: Option<string>, walletRequest: Option<real>, now: int)
    requires !CouponRequested(couponCode) || forall c :: c in coupons ==> !CouponApplies(c, assignments, user, couponCode.value, now)
    ensures Quote(cart, products, wallets, coupons, assignments, user, couponCode, walletRequest, now)
            == Quote(cart, products, wallets, coupons, assignments, user, None, walletRequest, now)
  {
    assert DiscountPercent(coupons, assignments, user, couponCode, now) == 0;
  }

  /** With unique coupon codes, a coupon that applies to the request sets the discount: the
      breakdown's discount is that coupon's percentage of the subtotal. */
  lemma QuoteWithCoupon(
    cart: seq<CartLine>, products: map<ProductId, Product>, wallets: map<UserId, int>,
    coupons: seq<Coupon>, assignments: set<(UserId, CouponId)>,
    user: UserId, c: Coupon, code: string, walletRequest: Option<real>, now: int)
    requires CodesUnique(coupons)
    requires c in coupons && code != "" && CouponApplies(c, assignments, user, code, now)
    ensures var r := Quote(cart, products, wallets, coupons, assignments, user, Some(code), walletRequest, now);
            r.Ok? && r.value.itemCount.Some? ==> r.value.discount == Discount(r.value.subtotal, c.percent)
  {
    DiscountPercentRule(coupons, assignments, user, Some(code), now);
  }

  /** The coupon rule holds for every shop: the unique key on coupons.code is part of `Valid`. */
  lemma ShopCouponRule(shop: Shop, c: Coupon, user: UserId, code: string, now: int)
    requires shop.Valid()
    requires c in shop.coupons && CouponApplies(c, shop.assignments, user, code, now)
    ensures DiscountPercent(shop.coupons, shop.assignments, user, Some(code), now) == if code == "" then 0 else c.percent
  {
    DiscountPercentRule(shop.coupons, shop.assignments, user, Some(code), now);
  }

  /** The amounts the place-order handler computes are the calculate-total breakdown of the same
      tables and request: the stored total_price is the previewed total. */
  lemma QuoteOfPlacedOrder(
    cart: seq<CartLine>, products: map<ProductId, Product>, wallets: map<UserId, int>,
    coupons: seq<Coupon>, assignments: set<(UserId, CouponId)>,
    user: UserId, couponCode: Option<string>, walletRequest: Option<real>, now: int,
    discount: real, used: int)
    requires Present(user) && user in wallets && CartRows(cart, products, user) != []
    requires walletRequest.None? || IsWhole(walletRequest.value)
    requires discount == if CouponRequested(couponCode) && |CouponQuery(coupons, assignments, user, couponCode.value, now)| > 0
                         then Discount(Subtotal(CartRows(cart, products, user)), CouponQuery(coupons, assignments, user, couponCode.value, now)[0].percent)
                         else 0.0
    requires used == if WalletRequested(walletRequest) then Min(walletRequest.value.Floor, wallets[user]) else 0
    ensures var subtotal := Subtotal(CartRows(cart, products, user));
            Quote(cart, products, wallets, coupons, assignments, user, couponCode, walletRequest, now)
              == Ok(Breakdown(subtotal, discount, used as real, Total(subtotal, discount, used as real), Some(|CartRows(cart, products, user)|)))
  {
    WalletUsedWhole(walletRequest, wallets[user]);
    assert Discount(Subtotal(CartRows(cart, products, user)), 0) == 0.0;
  }

  /** The tables the handlers write, as one value. */
  datatype Tables = Tables(
    products: map<ProductId, Product>,
    wallets: map<UserId, int>,
    cart: seq<CartLine>,
    orders: map<OrderId, Order>,
    orderItems: seq<OrderItem>)

  /** The table constraints the handlers rely on: keys, foreign keys, the unique cart key, and
      the non-negative counts the handlers maintain. */
  ghost predicate TablesValid(sellers: set<SellerId>, t: Tables)
  {
    && ProductsValid(t.products)
    && (forall pid :: pid in t.products ==> t.products[pid].seller in sellers)
    && (forall u :: u in t.wallets ==> t.wallets[u] >= 0)
    && CartUnique(t.cart)
    && (forall l :: l in t.cart ==> l.quantity >= 1 && l.user in t.wallets && l.product in t.products)
    && (forall o :: o in t.orders ==> t.orders[o].user in t.wallets && t.orders[o].walletPointsUsed >= 0)
    && (forall it :: it in t.orderItems ==> it.order in t.orders && it.product in t.products && it.quantity >= 1)
  }

  /** Checkout keeps the table constraints: stock stays non-negative because every line is within
      stock and no product repeats in a cart, the wallet because at most the balance is debited,
      and the new order lines refer to the new order and to existing products. */
  lemma CheckoutKeepsTablesValid(sellers: set<SellerId>, before: Tables, after: Tables, user: UserId, orderId: OrderId, order: Order)
    requires TablesValid(sellers, before)
    requires orderId !in before.orders && StockCovers(CartRows(before.cart, before.products, user))
    requires order.user == user && user in before.wallets && 0 <= order.walletPointsUsed <= before.wallets[user]
    requires var rows := CartRows(before.cart, before.products, user);
             after == Tables(
               Withdrawn(before.products, RowMoves(rows)),
               before.wallets[user := before.wallets[user] - order.walletPointsUsed],
               WithoutUser(before.cart, user),
               before.orders[orderId := order],
               before.orderItems + ItemsFor(orderId, rows))
    ensures TablesValid(sellers, after)
  {
    CheckoutKeepsStockNonNegative(before.cart, before.products, user);
    KeepLinesUnique(before.cart, NotOfUser(user));
    ItemsForValid(before.cart, before.products, user, orderId);
    assert after.products.Keys == before.products.Keys;
  }

  /** `after` is `before` with the user's cart checked out as order `orderId`: the order row holds
      the calculate-total breakdown of `before` (the points used are whole), one order line per
      cart row at the row's price, each product's stock less the rows' quantities, the wallet
      debited by the points used, and the user's cart lines deleted. */
  ghost predicate CheckedOut(
    before: Tables, after: Tables, coupons: seq<Coupon>, assignments: set<(UserId, CouponId)>,
    user: UserId, couponCode: Option<string>, walletRequest: Option<real>, now: int,
    orderId: OrderId, summary: OrderSummary)
  {
    var rows := CartRows(before.cart, before.products, user);
    var quote := Quote(before.cart, before.products, before.wallets, coupons, assignments, user, couponCode, walletRequest, now);
    && quote.Ok?
    && var used := quote.value.walletDeduction.Floor;
    && used as real == quote.value.walletDeduction
    && summary == OrderSummary(orderId, quote.value.total, quote.value.discount, used, PaymentPending, couponCode)
    && after.orders == before.orders[orderId := Order(user, quote.value.total, quote.value.discount, used, couponCode, PaymentPending, OrderPending)]
    && after.orderItems == before.orderItems + ItemsFor(orderId, rows)
    && after.products == Withdrawn(before.products, RowMoves(rows))
    && user in before.wallets && after.wallets == before.wallets[user := before.wallets[user] - used]
    && after.cart == WithoutUser(before.cart, user)
  }

  lemma CheckedOutIntro(
    before: Tables, after: Tables, coupons: seq<Coupon>, assignments: set<(UserId, CouponId)>,
    user: UserId, couponCode: Option<string>, walletRequest: Option<real>, now: int,
    orderId: OrderId, order: Order, summary: OrderSummary)
    requires var rows := CartRows(before.cart, before.products, user);
             && Quote(before.cart, before.products, before.wallets, coupons, assignments, user, couponCode, walletRequest, now)
                == Ok(Breakdown(Subtotal(rows), order.discountAmount, order.walletPointsUsed as real, order.totalPrice, Some(|rows|)))
             && order == Order(user, order.totalPrice, order.discountAmount, order.walletPointsUsed, couponCode, PaymentPending, OrderPending)
             && summary == OrderSummary(orderId, order.totalPrice, order.discountAmount, order.walletPointsUsed, PaymentPending, couponCode)
             && user in before.wallets
             && after == Tables(
                  Withdrawn(before.products, RowMoves(rows)),
                  before.wallets[user := before.wallets[user] - order.walletPointsUsed],
                  WithoutUser(before.cart, user),
                  before.orders[orderId := order],
                  before.orderItems + ItemsFor(orderId, rows))
    ensures CheckedOut(before, after, coupons, assignments, user, couponCode, walletRequest, now, orderId, summary)
  {
    assert (order.walletPointsUsed as real).Floor == order.walletPointsUsed;
  }

  /** The tables of the shop. Sellers, coupons and coupon assignments are written only by
      registration and administration, which are not part of this model. */
  class Shop {
    const sellers: set<SellerId>
    /** The coupons table in storage order. */
    const coupons: seq<Coupon>
    /** The user_coupons table as (user, coupon id) pairs. */
    const assignments: set<(UserId, CouponId)>
    var products: map<ProductId, Product>
    /** The users table, reduced to each user's wallet points. */
    var wallets: map<UserId, int>
    var cart: seq<CartLine>
    var orders: map<OrderId, Order>
    var orderItems: seq<OrderItem>

    /** The tables the handlers write. */
    ghost function State(): Tables
      reads this
    {
      Tables(products, wallets, cart, orders, orderItems)
    }

    /** The table constraints, and the unique key on coupons.code. */
    ghost predicate Valid()
      reads this
    {
      TablesValid(sellers, State()) && CodesUnique(coupons)
    }

    constructor (sellers: set<SellerId>, coupons: seq<Coupon>, assignments: set<(UserId, CouponId)>,
                 wallets: map<UserId, int>, products: map<ProductId, Product>)
      requires forall u :: u in wallets ==> wallets[u] >= 0
      requires ProductsValid(products)
      requires forall pid :: pid in products ==> products[pid].seller in sellers
      requires CodesUnique(coupons)
      ensures Valid()
      ensures this.sellers == sellers && this.coupons == coupons && this.assignments == assignments
      ensures this.wallets == wallets && this.products == products
      ensures cart == [] && orders == map[] && orderItems == []
    {
      this.sellers := sellers;
      this.coupons := coupons;
      this.assignments := assignments;
      this.wallets := wallets;
      this.products := products;
      cart := [];
      orders := map[];
      orderItems := [];
    }

    // ---------------------------------------------------------------- cart

    /** POST /cart/add: increment the user's line for the product, or insert a new one. */
    method AddToCart(user: UserId, productId: ProductId, quantity: real, freshId: CartId) returns (r: Result<()>)
      requires Valid()
      requires forall l :: l in cart ==> l.id != freshId
      modifies this`cart
      ensures Valid()
      ensures !ValidQuantity(quantity) ==> r == Err(InvalidRequest)
      ensures ValidQuantity(quantity) && !Present(user) ==> r == Err(MissingUserId)
      ensures ValidQuantity(quantity) && Present(user) && productId !in products ==> r == Err(ProductNotFound)
      ensures r == Err(StoreFailure) <==>
                && ValidQuantity(quantity) && Present(user) && productId in products
                && FindLine(old(cart), user, productId).None? && user !in wallets
      ensures r.Ok? <==>
                && ValidQuantity(quantity) && Present(user) && productId in products
                && (FindLine(old(cart), user, productId).Some? || user in wallets)
      ensures r.Err? ==> cart == old(cart)
      ensures r.Ok? ==> cart == Upsert(old(cart), user, productId, quantity.Floor, freshId)
    {
      if !ValidQuantity(quantity) {
        return Err(InvalidRequest);
      }
      if !Present(user) {
        return Err(MissingUserId);
      }
      if productId !in products {
        return Err(ProductNotFound);
      }
      var q := quantity.Floor;
      var existing := FindLine(cart, user, productId);
      UpsertEffect(cart, user, productId, q, freshId);
      match existing {
        case Some(line) =>
          cart := AddQuantity(cart, line.id, q);
        case None =>
          if user !in wallets {
            return Err(StoreFailure);
          }
          cart := cart + [CartLine(freshId, user, productId, q)];
      }
      assert forall l :: l in cart ==> l in old(cart) || (l.user == user && l.product == productId && l.quantity >= 1);
      return Ok(());
    }

    /** PUT /cart/:cartId: overwrite the quantity of a line the user owns. */
    method UpdateCartItem(user: UserId, cartId: CartId, quantity: real) returns (r: Result<()>)
      requires Valid()
      modifies this`cart
      ensures Valid()
      ensures !ValidQuantity(quantity) ==> r == Err(InvalidRequest)
      ensures ValidQuantity(quantity) && !Present(user) ==> r == Err(MissingUserId)
      ensures ValidQuantity(quantity) && Present(user) && !OwnsLine(old(cart), user, cartId) ==> r == Err(CartItemNotFound)
      ensures r.Ok? <==> ValidQuantity(quantity) && Present(user) && OwnsLine(old(cart), user, cartId)
      ensures r.Err? ==> cart == old(cart)
      ensures r.Ok? ==> cart == SetQuantity(old(cart), cartId, quantity.Floor)
    {
      if !ValidQuantity(quantity) {
        return Err(InvalidRequest);
      }
      if !Present(user) {
        return Err(MissingUserId);
      }
      if !OwnsLine(cart, user, cartId) {
        return Err(CartItemNotFound);
      }
      SetQuantityUnique(cart, cartId, quantity.Floor);
      cart := SetQuantity(cart, cartId, quantity.Floor);
      forall l | l in cart ensures l.quantity >= 1 && l.user in wallets && l.product in products {
        var i :| 0 <= i < |cart| && cart[i] == l;
        assert old(cart)[i] in old(cart);
      }
      return Ok(());
    }

    /** DELETE /cart/:cartId: delete a line the user owns. */
    method RemoveCartItem(user: UserId, cartId: CartId) returns (r: Result<()>)
      requires Valid()
      modifies this`cart
      ensures Valid()
      ensures !Present(user) ==> r == Err(MissingUserId)
      ensures Present(user) && !OwnsLine(old(cart), user, cartId) ==> r == Err(CartItemNotFound)
      ensures r.Ok? <==> Present(user) && OwnsLine(old(cart), user, cartId)
      ensures r.Err? ==> cart == old(cart)
      ensures r.Ok? ==> cart == KeepLines(old(cart), NotLine(cartId))
    {
      if !Present(user) {
        return Err(MissingUserId);
      }
      if !OwnsLine(cart, user, cartId) {
        return Err(CartItemNotFound);
      }
      KeepLinesUnique(cart, NotLine(cartId));
      cart := KeepLines(cart, NotLine(cartId));
      return Ok(());
    }

    /** DELETE /cart: delete every line of the user. */
    method ClearCart(user: UserId) returns (r: Result<()>)
      requires Valid()
      modifies this`cart
      ensures Valid()
      ensures r.Err? <==> !Present(user)
      ensures r.Err? ==> r.error == MissingUserId && cart == old(cart)
      ensures r.Ok? ==> cart == WithoutUser(old(cart), user)
    {
      if !Present(user) {
        return Err(MissingUserId);
      }
      KeepLinesUnique(cart, NotOfUser(user));
      cart := WithoutUser(cart, user);
      return Ok(());
    }

    // ---------------------------------------------------------------- orders

    /** The order-line insert and stock decrement loop of checkout. */
    method WriteItems(orderId: OrderId, rows: seq<CartRow>)
      modifies this`products, this`orderItems
      ensures orderItems == old(orderItems) + ItemsFor(orderId, rows)
      ensures products == Withdrawn(old(products), RowMoves(rows))
    {
      WithdrawnNothing(products);
      assert RowMoves(rows[..0]) == [] && ItemsFor(orderId, rows[..0]) == [];
      for i := 0 to |rows|
        invariant orderItems == old(orderItems) + ItemsFor(orderId, rows[..i])
        invariant products == Withdrawn(old(products), RowMoves(rows[..i]))
      {
        var row := rows[i];
        WriteRowStep(old(products), orderId, rows, i);
        orderItems := orderItems + [OrderItem(orderId, row.line.product, row.line.quantity, row.price)];
        products := Shifted(products, row.line.product, -row.line.quantity);
      }
      assert rows[..|rows|] == rows;
    }

    /** The stock restore loop of a failed payment. */
    method RestoreStock(items: seq<OrderItem>)
      modifies this`products
      ensures products == Restocked(old(products), ItemMoves(items))
    {
      WithdrawnNothing(products);
      assert ItemMoves(items[..0]) == [];
      for i := 0 to |items|
        invariant products == Restocked(old(products), ItemMoves(items[..i]))
      {
        var item := items[i];
        RestoreItemStep(old(products), items, i);
        products := Shifted(products, item.product, item.quantity);
      }
      assert items[..|items|] == items;
    }

    /** The writes of checkout, in the handler's order: the order row, its lines with the stock
        decrements, the wallet debit when points are used, and the user's cart deleted. */
    method Commit(user: UserId, rows: seq<CartRow>, orderId: OrderId, order: Order)
      requires user in wallets && order.walletPointsUsed >= 0
      modifies this`products, this`wallets, this`cart, this`orders, this`orderItems
      ensures orders == old(orders)[orderId := order]
      ensures orderItems == old(orderItems) + ItemsFor(orderId, rows)
      ensures products == Withdrawn(old(products), RowMoves(rows))
      ensures wallets == old(wallets)[user := old(wallets)[user] - order.walletPointsUsed]
      ensures cart == WithoutUser(old(cart), user)
    {
      orders := orders[orderId := order];
      WriteItems(orderId, rows);
      if order.walletPointsUsed > 0 {
        wallets := wallets[user := wallets[user] - order.walletPointsUsed];
      } else {
        assert wallets == wallets[user := wallets[user] - order.walletPointsUsed];
      }
      cart := WithoutUser(cart, user);
    }

    /** Checkout of a cart that passed every check: price it as calculate-total does, then run the
        writes. */
    method CheckOut(user: UserId, couponCode: Option<string>, walletRequest: Option<real>, now: int, orderId: OrderId,
                    rows: seq<CartRow>)
      returns (summary: OrderSummary)
      requires Valid()
      requires orderId !in orders
      requires OrderRequestValid(couponCode, walletRequest) && Present(user)
      requires rows == CartRows(cart, products, user) && rows != [] && StockCovers(rows)
      modifies this`products, this`wallets, this`cart, this`orders, this`orderItems
      ensures Valid()
      ensures CheckedOut(old(State()), State(), coupons, assignments, user, couponCode, walletRequest, now, orderId, summary)
    {
      ghost var before := State();
      var total, discount, used := PriceOrder(user, couponCode, walletRequest, now, rows);
      var order := Order(user, total, discount, used, couponCode, PaymentPending, OrderPending);
      Commit(user, rows, orderId, order);
      summary := OrderSummary(orderId, total, discount, used, PaymentPending, couponCode);
      CheckoutKeepsTablesValid(sellers, before, State(), user, orderId, order);
      CheckedOutIntro(before, State(), coupons, assignments, user, couponCode, walletRequest, now, orderId, order, summary);
    }

    /** The pricing of checkout: the subtotal loop, the coupon lookup and the capped wallet use. */
    method PriceOrder(user: UserId, couponCode: Option<string>, walletRequest: Option<real>, now: int, rows: seq<CartRow>)
      returns (total: real, discount: real, used: int)
      requires Valid()
      requires OrderRequestValid(couponCode, walletRequest) && Present(user)
      requires rows == CartRows(cart, products, user) && rows != []
      ensures user in wallets && 0 <= used <= wallets[user]
      ensures Quote(cart, products, wallets, coupons, assignments, user, couponCode, walletRequest, now)
              == Ok(Breakdown(Subtotal(rows), discount, used as real, total, Some(|rows|)))
    {
      var subtotal := SumSubtotal(rows);
      discount := 0.0;
      if CouponRequested(couponCode) {
        var found := CouponQuery(coupons, assignments, user, couponCode.value, now);
        if |found| > 0 {
          discount := Discount(subtotal, found[0].percent);
        }
      }
      assert rows[0].line in cart;
      used := 0;
      if WalletRequested(walletRequest) {
        used := Min(walletRequest.value.Floor, wallets[user]);
      }
      total := Total(subtotal, discount, used as real);
      QuoteOfPlacedOrder(cart, products, wallets, coupons, assignments, user, couponCode, walletRequest, now, discount, used);
    }

    /** POST /orders/place: check the request and the cart, then check out. */
    method PlaceOrder(user: UserId, couponCode: Option<string>, walletRequest: Option<real>, now: int, orderId: OrderId)
      returns (r: Result<OrderSummary>)
      requires Valid()
      requires orderId !in orders
      modifies this`products, this`wallets, this`cart, this`orders, this`orderItems
      ensures Valid()
      ensures !OrderRequestValid(couponCode, walletRequest) ==> r == Err(InvalidRequest)
      ensures OrderRequestValid(couponCode, walletRequest) && !Present(user) ==> r == Err(MissingUserId)
      ensures OrderRequestValid(couponCode, walletRequest) && Present(user) && CartRows(old(cart), old(products), user) == []
              ==> r == Err(EmptyCart)
      ensures var rows := CartRows(old(cart), old(products), user);
              OrderRequestValid(couponCode, walletRequest) && Present(user) && rows != [] && !StockCovers(rows) ==>
                exists k :: 0 <= k < |rows| && StockCovers(rows[..k]) && rows[k].line.quantity > rows[k].stock
                            && r == Err(InsufficientStock(rows[k].line.product))
      ensures r.Ok? <==>
                && OrderRequestValid(couponCode, walletRequest) && Present(user)
                && CartRows(old(cart), old(products), user) != [] && StockCovers(CartRows(old(cart), old(products), user))
      ensures r.Err? ==>
                && products == old(products) && wallets == old(wallets) && cart == old(cart)
                && orders == old(orders) && orderItems == old(orderItems)
      ensures r.Ok? ==> CheckedOut(old(State()), State(), coupons, assignments, user, couponCode, walletRequest, now, orderId, r.value)
    {
      if !OrderRequestValid(couponCode, walletRequest) {
        return Err(InvalidRequest);
      }
      if !Present(user) {
        return Err(MissingUserId);
      }
      var rows := CartRows(cart, products, user);
      if |rows| == 0 {
        return Err(EmptyCart);
      }
      var shortage := FindShortage(rows);
      if shortage.Some? {
        return Err(InsufficientStock(rows[shortage.value].line.product));
      }
      var summary := CheckOut(user, couponCode, walletRequest, now, orderId, rows);
      return Ok(summary);
    }

    /** PUT /orders/payment/:orderId: settle a pending order. A failed payment gives the order's
        quantities back to stock and its wallet points back to the user. */
    method SettlePayment(orderId: OrderId, status: string) returns (r: Result<Settlement>)
      requires Valid()
      modifies this`orders, this`products, this`wallets
      ensures Valid()
      ensures ParseOutcome(status).None? ==> r == Err(InvalidPaymentStatus)
      ensures ParseOutcome(status).Some? && orderId !in old(orders) ==> r == Err(OrderNotFound)
      ensures ParseOutcome(status).Some? && orderId in old(orders) && old(orders)[orderId].payment != PaymentPending
              ==> r == Err(PaymentAlreadyProcessed)
      ensures r.Ok? <==> ParseOutcome(status).Some? && orderId in old(orders) && old(orders)[orderId].payment == PaymentPending
      ensures r.Err? ==> orders == old(orders) && products == old(products) && wallets == old(wallets)
      ensures r.Ok? ==>
                var outcome := ParseOutcome(status).value;
                var order := old(orders)[orderId];
                && r.value == Settlement(orderId, outcome, OrderStatusAfter(outcome))
                && orders == old(orders)[orderId := order.(payment := outcome, status := OrderStatusAfter(outcome))]
                && (outcome == PaymentSuccess ==> products == old(products) && wallets == old(wallets))
                && (outcome == PaymentFailed ==>
                      && products == Restocked(old(products), ItemMoves(ItemsOf(orderItems, orderId)))
                      && wallets == Refunded(old(wallets), order.user, order.walletPointsUsed))
    {
      var outcome := ParseOutcome(status);
      if outcome.None? {
        return Err(InvalidPaymentStatus);
      }
      if orderId !in orders {
        return Err(OrderNotFound);
      }
      var order := orders[orderId];
      if order.payment != PaymentPending {
        return Err(PaymentAlreadyProcessed);
      }
      var payment := outcome.value;
      orders := orders[orderId := order.(payment := payment, status := OrderStatusAfter(payment))];
      if payment == PaymentFailed {
        var items := ItemsOf(orderItems, orderId);
        ItemsOfMembers(orderItems, orderId);
        RestockKeepsProductsValid(products, items);
        RestoreStock(items);
        if order.walletPointsUsed > 0 {
          wallets := wallets[order.user := wallets[order.user] + order.walletPointsUsed];
        }
      }
      return Ok(Settlement(orderId, payment, OrderStatusAfter(payment)));
    }

    /** GET /orders/:orderId: an order the user owns, with its lines. */
    method GetOrder(user: UserId, orderId: OrderId) returns (r: Result<OrderView>)
      ensures r == Err(MissingUserId) <==> !Present(user)
      ensures r == Err(OrderNotFound) <==> Present(user) && !(orderId in orders && orders[orderId].user == user)
      ensures r.Ok? ==>
                && orderId in orders && orders[orderId].user == user
                && r.value.order == orders[orderId]
                && (forall it :: it in r.value.items <==> it in orderItems && it.order == orderId)
    {
      if !Present(user) {
        return Err(MissingUserId);
      }
      if !(orderId in orders && orders[orderId].user == user) {
        return Err(OrderNotFound);
      }
      ItemsOfMembers(orderItems, orderId);
      return Ok(OrderView(orders[orderId], ItemsOf(orderItems, orderId)));
    }

    /** GET /orders: the user's orders. */
    method ListOrders(user: UserId) returns (r: Result<map<OrderId, OrderListing>>)
      ensures r.Err? <==> !Present(user)
      ensures r.Err? ==> r.error == MissingUserId
      ensures r.Ok? ==> forall o :: o in r.value <==> o in orders && orders[o].user == user
      ensures r.Ok? ==> forall o :: o in r.value ==> r.value[o] == Listing(orders[o])
    {
      if !Present(user) {
        return Err(MissingUserId);
      }
      return Ok(map o | o in orders && orders[o].user == user :: Listing(orders[o]));
    }

    // ---------------------------------------------------------------- products

    /** POST /products/add: insert a product owned by an existing seller. The handler binds the
        description as it comes in the body, and a bind parameter left undefined makes the INSERT
        fail, so a request without a description inserts nothing. */
    method AddProduct(seller: SellerId, name: string, description: Option<string>, price: real, stock: real, productId: ProductId)
      returns (r: Result<ProductId>)
      requires Valid()
      requires productId !in products
      modifies this`products
      ensures Valid()
      ensures !ProductInputValid(name, description, price, stock) ==> r == Err(InvalidRequest)
      ensures ProductInputValid(name, description, price, stock) && !Present(seller) ==> r == Err(MissingSellerId)
      ensures ProductInputValid(name, description, price, stock) && Present(seller) && seller !in sellers ==> r == Err(UnknownSeller)
      ensures ProductInputValid(name, description, price, stock) && Present(seller) && seller in sellers && description.None? ==> r == Err(StoreFailure)
      ensures r.Ok? <==> ProductInputValid(name, description, price, stock) && Present(seller) && seller in sellers && description.Some?
      ensures r.Err? ==> products == old(products)
      ensures r.Ok? ==>
                && r.value == productId
                && products == old(products)[productId := Product(seller, name, description, price, stock.Floor)]
    {
      if !ProductInputValid(name, description, price, stock) {
        return Err(InvalidRequest);
      }
      if !Present(seller) {
        return Err(MissingSellerId);
      }
      if seller !in sellers {
        return Err(UnknownSeller);
      }
      if description.None? {
        return Err(StoreFailure);
      }
      products := products[productId := Product(seller, name, description, price, stock.Floor)];
      return Ok(productId);
    }

    /** GET /products/:id */
    method GetProduct(id: ProductId) returns (r: Result<Product>)
      ensures r.Ok? <==> id in products
      ensures r.Err? ==> r.error == ProductNotFound
      ensures r.Ok? ==> r.value == products[id]
    {
      if id !in products {
        return Err(ProductNotFound);
      }
      return Ok(products[id]);
    }

    /** PUT /products/:id/stock: overwrite the stock of a product the seller owns. */
    method UpdateStock(seller: SellerId, id: ProductId, stock: real) returns (r: Result<()>)
      requires Valid()
      modifies this`products
      ensures Valid()
      ensures !Present(seller) ==> r == Err(MissingSellerId)
      ensures Present(seller) && !(IsWhole(stock) && stock >= 0.0) ==> r == Err(InvalidStockValue)
      ensures Present(seller) && IsWhole(stock) && stock >= 0.0 && !(id in old(products) && old(products)[id].seller == seller)
              ==> r == Err(ProductNotFound)
      ensures r.Ok? <==>
                Present(seller) && IsWhole(stock) && stock >= 0.0 && id in old(products) && old(products)[id].seller == seller
      ensures r.Err? ==> products == old(products)
      ensures r.Ok? ==> products == old(products)[id := old(products)[id].(stock := stock.Floor)]
    {
      if !Present(seller) {
        return Err(MissingSellerId);
      }
      if !(IsWhole(stock) && stock >= 0.0) {
        return Err(InvalidStockValue);
      }
      if !(id in products && products[id].seller == seller) {
        return Err(ProductNotFound);
      }
      products := products[id := products[id].(stock := stock.Floor)];
      return Ok(());
    }

    /** DELETE /products/:id: delete a product the seller owns. Its cart lines go with it; order
        lines that refer to it make the database refuse the delete. */
    method DeleteProduct(seller: SellerId, id: ProductId) returns (r: Result<()>)
      requires Valid()
      modifies this`products, this`cart
      ensures Valid()
      ensures !Present(seller) ==> r == Err(MissingSellerId)
      ensures Present(seller) && !(id in old(products) && old(products)[id].seller == seller) ==> r == Err(ProductNotFound)
      ensures Present(seller) && id in old(products) && old(products)[id].seller == seller && Referenced(orderItems, id)
              ==> r == Err(StoreFailure)
      ensures r.Ok? <==>
                Present(seller) && id in old(products) && old(products)[id].seller == seller && !Referenced(orderItems, id)
      ensures r.Err? ==> products == old(products) && cart == old(cart)
      ensures r.Ok? ==> products == old(products) - {id} && cart == KeepLines(old(cart), NotProduct(id))
    {
      if !Present(seller) {
        return Err(MissingSellerId);
      }
      if !(id in products && products[id].seller == seller) {
        return Err(ProductNotFound);
      }
      if Referenced(orderItems, id) {
        return Err(StoreFailure);
      }
      products := products - {id};
      KeepLinesUnique(cart, NotProduct(id));
      cart := KeepLines(cart, NotProduct(id));
      return Ok(());
    }
  }

  /** A failed payment for an order just placed puts back exactly the stock and wallet points the
      checkout took: the order's lines are the lines written at checkout, and restocking undoes the
      withdrawal. */
  lemma FailedPaymentUndoesCheckout(
    products: map<ProductId, Product>, wallets: map<UserId, int>, rows: seq<CartRow>,
    items: seq<OrderItem>, orderId: OrderId, user: UserId, used: int)
    requires forall it :: it in items ==> it.order != orderId
    requires user in wallets && used >= 0
    ensures Restocked(Withdrawn(products, RowMoves(rows)), ItemMoves(ItemsOf(items + ItemsFor(orderId, rows), orderId))) == products
    ensures Refunded(wallets[user := wallets[user] - used], user, used) == wallets
  {
    ItemsOfFresh(items, ItemsFor(orderId, rows), orderId);
    ItemMovesOfItemsFor(orderId, rows);
    RestockUndoesWithdraw(products, RowMoves(rows));
  }

  /** Checkout followed by a failed payment for the new order gives back the products and wallets
      of before the checkout: the new order is pending, its lines are exactly the lines checkout
      wrote, and the points it records are the points debited. */
  lemma CheckoutThenFailedPayment(
    before: Tables, after: Tables, coupons: seq<Coupon>, assignments: set<(UserId, CouponId)>,
    user: UserId, couponCode: Option<string>, walletRequest: Option<real>, now: int,
    orderId: OrderId, summary: OrderSummary)
    requires forall u :: u in before.wallets ==> before.wallets[u] >= 0
    requires forall it :: it in before.orderItems ==> it.order in before.orders
    requires orderId !in before.orders
    requires CheckedOut(before, after, coupons, assignments, user, couponCode, walletRequest, now, orderId, summary)
    ensures orderId in after.orders && after.orders[orderId].payment == PaymentPending
    ensures Restocked(after.products, ItemMoves(ItemsOf(after.orderItems, orderId))) == before.products
    ensures Refunded(after.wallets, after.orders[orderId].user, after.orders[orderId].walletPointsUsed) == before.wallets
  {
    var rows := CartRows(before.cart, before.products, user);
    QuoteOutcomes(before.cart, before.products, before.wallets, coupons, assignments, user, couponCode, walletRequest, now);
    var used := summary.walletPointsUsed;
    assert used >= 0;
    FailedPaymentUndoesCheckout(before.products, before.wallets, rows, before.orderItems, orderId, user, used);
  }
}
